=== FILE: README.md ===
# Coffee shop orders and inventory

This is a Dafny model of the transaction logic inside the Streamlit coffee-shop
manager `coffee_shop_app.py`, with the user interface taken away. One shop
session holds:

- a menu keyed by item name;
- an inventory keyed by ingredient name;
- the history of finished orders;
- the order counter;
- the running daily-sales total;
- at most one order being taken.

The pages drive the session through six transitions:

- start an order;
- add a line, after the ingredient check;
- complete the order, which deducts ingredients and records the sale;
- cancel the order;
- upsert a menu item, which parses the ingredient box;
- upsert an inventory entry.

The daily report summarises the history.

The model is functional. Every transition is a pure function from a `Session`
to `Result<Session, Error>`. A refused action names its reason, and the page
flow (`Shop.Apply`) leaves the state as it was. Python dictionaries are
modelled as `OrderedMap`s: a key sequence in insertion order plus a map.
Replacing a key keeps its position, and a new key goes at the end, as CPython
dicts do. Money is whole cents. The report's average is an exact `real`.

Modules, in dependency order:

- `Results`: `Option`/`Result`.
- `Sequences`: `Distinct`, `IndexOf`, `Count` and first-seen order.
- `OrderedMaps`: Python dict semantics.
- `Text`: `str.strip`, `str.split('\n')` and `'\n'.join`.
- `Entities`: the records and `Order.add_item`.
- `Catalog`: menu upsert and category grouping.
- `Ledger`: inventory upsert, low-stock alert, stock check and deduction.
- `History`: completed orders, sales, and the popularity tally and sort.
- `Shop`: the session, its transitions and its invariant.
- `Report`: the daily report.
- `Scenarios`: small worked sessions.

The model follows the code's behaviour:

- An ingredient the inventory does not track never blocks an order and is never deducted.
- Completion reads each line's recipe from the menu as it stands then. The line's price and category are the ones copied when the line was added.
- The stock check compares each line with the current stock only. It ignores earlier lines of the same order and repeated ingredients in one recipe, so nothing prevents stock from going below zero: `Scenarios.OversellWithinOneOrder` has two lines of three espressos pass the check against four units of beans, leaving -2.
- The inventory form validates restocks of existing entries too (line 241): an empty unit or a non-positive quantity is refused even for a known ingredient.

## Model

| member | source | states |
|---|---|---|
| Entities.NewOrder | coffee_shop_app.py:96-103 | A new order carries the given number and customer. It is pending, has no lines and a zero total, and its total matches its lines. |
| Entities.AddItem | coffee_shop_app.py:105-113 | Exactly one line is appended. It copies the item's name, price and category, with subtotal price × quantity. Earlier lines, id, customer and status are unchanged, and the total rises by the subtotal. An order whose total equalled the sum of its subtotals still does. |
| Entities.PositiveLinesPositiveSum | coffee_shop_app.py:105-113 | A non-empty order whose lines have positive prices has a positive total. |
| OrderedMaps.Put | coffee_shop_app.py:390 | Dictionary assignment. The key now maps to the value and every other key keeps its value. A replaced key keeps its position; a new key is appended. |
| Text.Strip | coffee_shop_app.py:383 | `str.strip()`. The result is a slice of the input with only whitespace around it, and it does not itself begin or end with whitespace. It is empty exactly when the input is blank. |
| Text.StripKeepsLine | coffee_shop_app.py:383 | Stripping removes characters only at the ends, so a line with no newline still has none afterwards. |
| Text.StripStripped | coffee_shop_app.py:383 | Stripping is idempotent on an already-stripped string. |
| Text.Split | coffee_shop_app.py:383 | `str.split('\n')` gives at least one piece, and no piece holds a newline. |
| Text.JoinSplit | coffee_shop_app.py:383 | Joining the pieces of a split with newlines gives back the original text. |
| Text.SplitJoin | coffee_shop_app.py:383 | Splitting a newline-join of newline-free lines gives back those lines. |
| Text.KeepNonBlank | coffee_shop_app.py:383 | The comprehension's filter over the split lines: every kept name is non-empty and stripped, and there are no more names than lines. Which names, and in what order, is stated by `Text.KeepNonBlankMembers` and `Text.KeepNonBlankAppend`. |
| Text.KeepNonBlankMembers | coffee_shop_app.py:383 | A name is kept exactly when it is not empty and some piece strips to it. |
| Text.KeepNonBlankLines | coffee_shop_app.py:383 | The names kept from newline-free pieces are non-empty, stripped single lines. |
| Text.KeepNonBlankAppend | coffee_shop_app.py:383 | Filtering two runs of pieces is filtering each and concatenating, so the kept names keep the pieces' order and each non-blank piece gives exactly one name. The one-piece step it builds on is `Text.KeepNonBlankCons`. |
| Text.ParseIngredients | coffee_shop_app.py:383 | Every parsed name is non-empty, stripped and a single line. A name is listed exactly when it is not empty and some line of the text strips to it. |
| Text.SplitAppend | coffee_shop_app.py:383 | Splitting text at a newline splits the two sides independently and concatenates the pieces. |
| Text.ParseLines | coffee_shop_app.py:383 | Text with a newline parses to the names of the part before it followed by the names of the part after it. |
| Text.ParseLine | coffee_shop_app.py:383 | A single line parses to its stripped self, or to no names when it is blank. |
| Text.ParseJoin | coffee_shop_app.py:383 | Writing clean ingredient names one per line and parsing the text gives back the same list. |
| Catalog.UpsertMenuItem | coffee_shop_app.py:370-390 | Checks in order: an empty name, then a non-positive price, then an empty category, each refused with its own error. Succeeds exactly when all three pass. The entry under the name gets the given name, price and category, with the parsed ingredients. Every other entry is untouched. A replaced entry keeps its place and a new one goes last. Menu well-formedness is preserved. |
| Catalog.GroupByCategory | coffee_shop_app.py:185-189 | The category grouping loop builds a well-formed dictionary. Its keys and groups are stated by `Catalog.GroupKeysFirstSeen` and `Catalog.GroupEntriesExact`. |
| Catalog.GroupKeysFirstSeen | coffee_shop_app.py:185-189 | The category groups are listed once each, in the order the categories first occur among the menu's items. |
| Catalog.GroupEntriesExact | coffee_shop_app.py:185-189 | Each group holds exactly the items of its category, in menu order. A category without a group has no items. |
| Catalog.MenuByCategory | coffee_shop_app.py:185-189 | The grouping of the menu's values: first-seen category order and exact per-category contents. |
| Ledger.UpsertStock | coffee_shop_app.py:240-247 | Refused exactly when the name is empty, the quantity is not positive or the unit is empty. A known ingredient gains the quantity and keeps its unit, threshold, name and position. An unknown one is appended with the given quantity, unit and threshold. No other entry changes. |
| Entities.IsLowStock | coffee_shop_app.py:84-85 | `is_low_stock`: an item is low when its quantity is at or below its threshold, the threshold itself included. `Scenarios.DefaultThreshold` states it for the default threshold of 10. |
| Ledger.LowStockAmong | coffee_shop_app.py:223-225 | The comprehension over the inventory's values: a name is listed exactly when some low entry under the given keys carries it, and there are no more names than keys. |
| Ledger.LowStockAlert | coffee_shop_app.py:223-225 | The alert lists a name exactly when some entry at or below its threshold carries that name. |
| Ledger.LowStockAmongAppend | coffee_shop_app.py:223-225 | The alert over two runs of keys is the alert over each, one after the other, so names appear in inventory order, one per low entry. The one-key step it builds on is `Ledger.LowStockOne`. |
| Ledger.LowStockAlertKeys | coffee_shop_app.py:223-225 | When every entry is filed under its own name, the alert lists an ingredient exactly when it is stocked at or below its threshold. |
| Ledger.FirstShort | coffee_shop_app.py:282-289 | No ingredient is reported exactly when no tracked recipe ingredient has fewer units than the line quantity. A reported ingredient is in the recipe, is short, and every earlier recipe ingredient is not. |
| Ledger.CheckAvailability | coffee_shop_app.py:282-290 | The loop over the recipe gives the same verdict and names the same ingredient as `FirstShort`. |
| Ledger.DeductRecipe | coffee_shop_app.py:324-326 | The inner deduction loop over one recipe keeps the inventory well formed, with the same keys in the same order. The amounts are stated by `Ledger.DeductRecipeExact`. |
| Ledger.DeductRecipeExact | coffee_shop_app.py:324-326 | Deducting one recipe at quantity q lowers every tracked ingredient by q × its occurrences in the recipe. Nothing else about the entry changes. |
| Ledger.DeductLines | coffee_shop_app.py:322-326 | Each tracked ingredient drops by its consumption: the sum over lines of the line quantity × its occurrences in the current recipe. Units, thresholds, names, the key set and the order are kept. |
| History.CompletedOrders | coffee_shop_app.py:404 | Only completed orders are kept, and there are never more of them than orders in the history. |
| History.CompletedMembers | coffee_shop_app.py:404 | An order is among the completed ones exactly when it is in the history with status completed. |
| History.CompletedSalesSnoc | coffee_shop_app.py:330 | Appending an order to the history adds its total to the completed sales only when it is completed. |
| History.SoldCompletedOrders | coffee_shop_app.py:422-426 | Counting an item over the lines of the completed orders equals the item's quantity sold by the completed orders. |
| History.Tally | coffee_shop_app.py:422-426 | The item-count loop builds a well-formed dictionary. Its keys are stated by `History.TallyKeysFirstSeen` and its counts by `History.TallyCountsSold`. |
| History.TallyKeysFirstSeen | coffee_shop_app.py:422-426 | The tally holds each sold item once, in the order items are first met. |
| History.TallyCountsSold | coffee_shop_app.py:422-426 | The tally's count for each item is the sum of its lines' quantities. An item with no lines is absent. The proof steps through one line at a time with `History.TallySnocEntry`. |
| History.InsertDesc | coffee_shop_app.py:431 | Inserting into a non-increasing table keeps it non-increasing. The result is the input plus the new pair as a multiset, and it starts with the new pair or the old head. |
| History.SortDesc | coffee_shop_app.py:431 | The sorted table is non-increasing by quantity and is a permutation of its input. |
| History.SortDescDistinct | coffee_shop_app.py:431 | Sorting a table with distinct item names keeps the names distinct. |
| History.Popularity | coffee_shop_app.py:419-431 | The popularity table is sorted by quantity, highest first. Its rows are characterised by `History.PopularityCorrect`. |
| History.PopularityCorrect | coffee_shop_app.py:419-431 | The popularity table is non-increasing and lists each name once. Each row's quantity is the item's quantity sold by completed orders. An item is listed exactly when it sold a positive quantity. |
| Shop.Init | coffee_shop_app.py:126-145 | A fresh session over a menu and an inventory whose entries are filed under their own names has no orders, counter 1, zero sales and no order being taken, and it satisfies the session invariant. |
| Shop.StartOrder | coffee_shop_app.py:255-263 | Refused exactly while an order is being taken. Otherwise the new order is pending, empty, totals zero, belongs to the customer and is numbered with the counter. The counter moves on by one and nothing else changes. |
| Shop.AddToOrder | coffee_shop_app.py:271-294 | Refusals come in this order: no current order, no item selected, item not on the menu, a short ingredient. When a tracked recipe ingredient is short the refusal is `InsufficientStock`, naming the first short one in recipe order. Succeeds exactly when no tracked recipe ingredient is short. Then one snapshotted line is appended and the total rises by its subtotal. The inventory and everything else are unchanged. |
| Shop.CompleteOrder | coffee_shop_app.py:297-330 | Refused without a current order or when the order has no lines. Otherwise the order joins the history as completed, sales rise by its total and the slot is cleared. Every tracked ingredient drops by its consumption under the current recipes. The menu, the counter and the inventory's keys are unchanged. |
| Shop.CancelOrder | coffee_shop_app.py:297-317 | Refused without a current order or when the order has no lines. Otherwise the order joins the history as cancelled and the slot is cleared. The inventory, the sales and everything else are unchanged. |
| Shop.AddMenuItem | coffee_shop_app.py:370-390 | The menu form on the session: it succeeds or fails exactly as the menu upsert does, and only the menu changes. |
| Shop.Restock | coffee_shop_app.py:240-247 | The inventory form on the session: it succeeds or fails exactly as the inventory upsert does, and only the inventory changes. |
| Shop.HistorySnoc | coffee_shop_app.py:314-329 | Appending a finished order, numbered after every order already in the history, keeps the history well kept. Every order stays finished with a positive total and ids stay increasing. |
| Shop.StartPreservesInv | coffee_shop_app.py:258-261 | Starting an order keeps the session invariant: the new order is numbered just below the moved-on counter and above every finished order. |
| Shop.AddPreservesInv | coffee_shop_app.py:279-292 | Adding a line keeps the open order's total equal to the sum of its subtotals, with every price positive. |
| Shop.FinishPreservesInv | coffee_shop_app.py:306-330 | Finishing the current order keeps the session invariant. The order joins the history with its final status, and the sales total grows by its total exactly when it is completed. |
| Shop.CompletePreservesInv | coffee_shop_app.py:319-330 | Completion keeps the session invariant. |
| Shop.CancelPreservesInv | coffee_shop_app.py:312-317 | Cancellation keeps the session invariant. |
| Shop.MenuPreservesInv | coffee_shop_app.py:370-390 | Upserting a menu item keeps the session invariant, in particular every menu entry stays filed under its own name with a positive price and a category. |
| Shop.RestockPreservesInv | coffee_shop_app.py:240-247 | Upserting an inventory entry keeps the session invariant, in particular every inventory entry stays filed under its own name. |
| Shop.Step | coffee_shop_app.py:240-390 | One page action. Only the menu form changes the menu. Only completion and the inventory form change the inventory. Only completion and cancellation change the history and the sales total. Only starting an order moves the counter. |
| Shop.StepPreservesInv | coffee_shop_app.py:255-330 | Every transition keeps the session invariant. Ids are increasing and below the counter, finished orders are non-empty and reconciled, sales equal the completed orders' totals, and the open order is pending and reconciled. |
| Shop.Apply | coffee_shop_app.py:255-330 | The page flow keeps the session invariant, whether the action succeeds or is refused. |
| Shop.Run | coffee_shop_app.py:255-330 | Any sequence of actions from a session that satisfies the invariant ends in one that still does. |
| Shop.HistoryAppendOnly | coffee_shop_app.py:306-317 | One action never removes or changes a finished order, so no order leaves the completed or cancelled state. The sales total never decreases. |
| Shop.OrderIdsUnique | coffee_shop_app.py:258-261 | Order numbers are pairwise distinct across the history, and the order being taken has a number no finished order has. |
| Shop.RunHistoryGrows | coffee_shop_app.py:306-330 | Over any run of actions the history keeps its prefix and the sales total never decreases. |
| Report.DailySummary | coffee_shop_app.py:404-417 | The order count is the number of completed orders and the sales figure is the running total. The average is 0 with no completed orders; otherwise average × count = sales. |
| Report.SummaryMatchesHistory | coffee_shop_app.py:330 | In every session reachable from the start, the reported sales equal the sum of the completed orders' totals. |
| Report.PopularItems | coffee_shop_app.py:419-431 | The report's popularity table has the properties `History.PopularityCorrect` states. |
| Scenarios.EspressoSale | coffee_shop_app.py:319-330 | Three espressos at 250 cents from 100 beans and 200 water: the total is 750. Completion leaves 97 and 197, records 750 cents of sales and one completed order, and clears the slot. |
| Scenarios.OversellWithinOneOrder | coffee_shop_app.py:282-292 | With 4 units of beans, two lines of 3 espressos both pass the check, and completing the order leaves -2 units. |
| Scenarios.RecipeChanged | coffee_shop_app.py:386-390 | Re-entering Espresso at 300 cents with an ingredient box that parses to water alone, while three espressos are on the order, replaces the entry's price and recipe. The order's line keeps its 250-cent price. |
| Scenarios.RecipeReadAtCompletion | coffee_shop_app.py:322-326 | After that recipe change, completion deducts no beans and 3 units of water, and still records the 750 cents of the line's snapshotted price. |
| Scenarios.RecipeChangeThenComplete | coffee_shop_app.py:322-390 | Re-entering Espresso with the box text "Water" and then completing the three-espresso order from 100 beans and 200 water leaves 100 beans and 197 water and records 750 cents. |
| Scenarios.DefaultThreshold | coffee_shop_app.py:77-85 | Any inventory item made without a threshold gets 10, and it is low stock exactly when at most 10 units are left. |
| Scenarios.EspressoShortOfBeans | coffee_shop_app.py:282-289 | With 2 units of beans, adding 5 espressos is refused naming the beans, and the session is unchanged. |
| Scenarios.UntrackedIngredientIgnored | coffee_shop_app.py:283-289 | For any inventory and quantity, a recipe whose ingredients are all untracked never fails the stock check. |
| Scenarios.DaysHistoryOk | coffee_shop_app.py:258-261 | The day's history, orders 1 to 3 in the order they were finished, is one the shop can keep. |
| Scenarios.MuffinOutsellsLatte | coffee_shop_app.py:419-431 | Orders 1 and 3 each completed with 2 muffins and 1 latte, and order 2, a latte, cancelled: the table is Muffin 4 then Latte 2. |

## Left out

- Streamlit rendering, forms, buttons, reruns, page layout and CSS are not modelled. The pages' user actions become the `Shop.Action` values instead.
- pandas DataFrames and their styling are left out. The popularity table is a sequence of (name, quantity) pairs.
- History.SortDesc: the source's pandas sort does not promise a tie order, so only the non-increasing order and the permutation are stated. The model's insertion sort happens to be stable, and nothing relies on that.
- Timestamps (`datetime.now()`), `to_dict` formatting and the orders page's status filter are presentation only and are left out.
- Floating-point currency is replaced by whole cents, so there is no rounding. The average is an exact rational.
- The default seed menu and inventory are not modelled. `Shop.Init` takes any well-formed menu and inventory, and the scenarios use small ones of their own.
- Shop.AddToOrder: the quantity widget's minimum of 1 is the `Quantity` type rather than a checked error.
- Shop.AddToOrder: the refusals `NoCurrentOrder` and `NoItemSelected` have no counterpart in the source. The add widgets exist only while an order is current (line 265), and with no item selected the button does nothing and shows no message (line 278). The page flow leaves the state unchanged, as the source does.
- Shop.AddToOrder: the item picker offers only menu names. A name not on the menu cannot be chosen in the source, so the model's refusal `UnknownItem` has no counterpart there.
- Shop.StartOrder: in the source the Start button is simply not shown while an order is being taken. The model refuses instead. The same applies to Complete/Cancel without a current order or with an empty one.
- Shop.StartOrder: the name "Walk-in" (`Entities.WalkIn`) is only the customer box's pre-filled value, which belongs to the user interface. The model takes the name as typed, so a cleared box gives an empty name, as in the source.
- Ledger.UpsertStock: the source ignores invalid inventory input without any message. The model returns `InvalidStockEntry` and the page flow keeps the state unchanged, so the observable state is the same.
- Ledger.UpsertStock: the threshold box does not accept values below 1, and its default is 10, the same default `InventoryItem` has (`Entities.DefaultMinStock`, the constructor's default in the model). The model accepts any threshold, which covers the widget's range.
- Catalog.UpsertMenuItem: the form widget keeps the price at or above zero. The model accepts any integer and refuses non-positive prices, which covers the widget's range.

=== FILE: catalog.dfy ===
/** The menu: the add-menu-item form's validation and upsert, and the menu
    page's grouping of items by category. */
module Catalog {
  import opened Sequences
  import opened Results
  import opened OrderedMaps
  import opened Text
  import opened Entities

  /** Menu entries keyed by item name, in insertion order. */
  type Menu = OrderedMap<MenuItem>

  /** What the menu form guarantees of every entry it stores: the entry is
      filed under its own name, and name, price and category pass validation. */
  ghost predicate MenuOk(menu: Menu) {
    && Valid(menu)
    && forall k :: k in menu.entries ==>
         && menu.entries[k].name == k
         && k != ""
         && menu.entries[k].price > 0
         && menu.entries[k].category != ""
  }

  /** Add or replace a menu entry. Refused, in this order of checking, when
      the name is empty, the price is not positive or the category is empty.
      Otherwise the entry under `name` becomes the new item whose ingredients
      are the stripped non-blank lines of `ingredientsText`; every other entry
      is untouched, and a replaced entry keeps its place in the menu. */
  function UpsertMenuItem(menu: Menu, name: string, price: int, category: string, ingredientsText: string)
    : (r: Result<Menu, Error>)
    requires Valid(menu)
    ensures name == "" ==> r == Err(NameRequired)
    ensures name != "" && price <= 0 ==> r == Err(PriceNotPositive)
    ensures name != "" && price > 0 && category == "" ==> r == Err(CategoryRequired)
    ensures r.Ok? <==> name != "" && price > 0 && category != ""
    ensures r.Ok? ==> Valid(r.value)
    ensures r.Ok? ==> (name in r.value.entries
      && r.value.entries[name].name == name
      && r.value.entries[name].price == price
      && r.value.entries[name].category == category
      && r.value.entries[name].ingredients == ParseIngredients(ingredientsText))
    ensures r.Ok? ==> forall k :: k != name ==> (k in r.value.entries <==> k in menu.entries)
    ensures r.Ok? ==> forall k :: k != name && k in menu.entries ==> r.value.entries[k] == menu.entries[k]
    ensures r.Ok? && name in menu.entries ==> r.value.keys == menu.keys
    ensures r.Ok? && name !in menu.entries ==> r.value.keys == menu.keys + [name]
    ensures r.Ok? && MenuOk(menu) ==> MenuOk(r.value)
  {
    if name == "" then Err(NameRequired)
    else if price <= 0 then Err(PriceNotPositive)
    else if category == "" then Err(CategoryRequired)
    else Ok(Put(menu, name, MenuItem(name, price, category, ParseIngredients(ingredientsText))))
  }

  /** The categories of the items, one per item, in order. */
  function Categories(items: seq<MenuItem>): (cs: seq<string>)
    ensures |cs| == |items|
    ensures forall i :: 0 <= i < |items| ==> cs[i] == items[i].category
  {
    seq(|items|, i requires 0 <= i < |items| => items[i].category)
  }

  /** The items of category c, in their original order. */
  ghost function InCategory(items: seq<MenuItem>, c: string): seq<MenuItem>
  {
    if |items| == 0 then []
    else (if items[0].category == c then [items[0]] else []) + InCategory(items[1..], c)
  }

  lemma {:induction false} InCategorySnoc(items: seq<MenuItem>, x: MenuItem, c: string)
    ensures InCategory(items + [x], c) == InCategory(items, c) + (if x.category == c then [x] else [])
  {
    if |items| == 0 {
      assert items + [x] == [x];
    } else {
      InCategorySnoc(items[1..], x, c);
      assert (items + [x])[1..] == items[1..] + [x];
    }
  }

  /** The menu page's grouping: walks the items in order, opening a group the
      first time a category is met and appending each item to its category's
      group. */
  function GroupByCategory(items: seq<MenuItem>): (g: OrderedMap<seq<MenuItem>>)
    ensures Valid(g)
  {
    if |items| == 0 then Empty()
    else
      var g0 := GroupByCategory(items[..|items| - 1]);
      var x := items[|items| - 1];
      Put(g0, x.category, Get(g0, x.category, []) + [x])
  }

  lemma {:induction false} CategoriesSnoc(items: seq<MenuItem>)
    requires |items| > 0
    ensures Categories(items) == Categories(items[..|items| - 1]) + [items[|items| - 1].category]
  {
  }

  lemma {:induction false} GroupSnocKeys(items: seq<MenuItem>)
    requires |items| > 0
    ensures var g0 := GroupByCategory(items[..|items| - 1]);
      var c := items[|items| - 1].category;
      GroupByCategory(items).keys == if c in g0.keys then g0.keys else g0.keys + [c]
  {
    var g0 := GroupByCategory(items[..|items| - 1]);
    assert items[|items| - 1].category in g0.keys <==> items[|items| - 1].category in g0.entries;
  }

  /** The groups list each category of the items once, in the order the
      categories first appear. */
  lemma {:induction false} GroupKeysFirstSeen(items: seq<MenuItem>)
    ensures FirstSeenOrder(GroupByCategory(items).keys, Categories(items))
  {
    if |items| > 0 {
      var pre := items[..|items| - 1];
      GroupKeysFirstSeen(pre);
      GroupSnocKeys(items);
      CategoriesSnoc(items);
      FirstSeenSnoc(GroupByCategory(pre).keys, Categories(pre), items[|items| - 1].category,
        GroupByCategory(items).keys, Categories(items));
    }
  }

  /** Each group holds exactly the items of its category, in their original
      order, and a category with no group has no items. */
  lemma {:induction false} GroupEntriesExact(items: seq<MenuItem>)
    ensures forall c :: c in GroupByCategory(items).entries ==>
              GroupByCategory(items).entries[c] == InCategory(items, c)
    ensures forall c :: c !in GroupByCategory(items).entries ==> InCategory(items, c) == []
  {
    if |items| > 0 {
      var pre := items[..|items| - 1];
      var x := items[|items| - 1];
      GroupEntriesExact(pre);
      var g0 := GroupByCategory(pre);
      var g := GroupByCategory(items);
      assert items == pre + [x];
      assert g == Put(g0, x.category, Get(g0, x.category, []) + [x]);
      forall c
        ensures c in g.entries ==> g.entries[c] == InCategory(items, c)
        ensures c !in g.entries ==> InCategory(items, c) == []
      {
        InCategorySnoc(pre, x, c);
      }
    }
  }

  /** The menu page's category listing of the menu. */
  function MenuByCategory(menu: Menu): (g: OrderedMap<seq<MenuItem>>)
    requires Valid(menu)
    ensures Valid(g)
    ensures FirstSeenOrder(g.keys, Categories(Values(menu)))
    ensures forall c :: c in g.entries ==> g.entries[c] == InCategory(Values(menu), c)
  {
    GroupKeysFirstSeen(Values(menu));
    GroupEntriesExact(Values(menu));
    GroupByCategory(Values(menu))
  }
}

=== FILE: entities.dfy ===
/** The shop's records: menu items, inventory items, order lines and orders,
    with the line accumulation an order performs. Money is in whole cents. */
module Entities {

  /** The order form's quantity box accepts whole numbers from 1 upward. */
  type Quantity = q: int | q >= 1 witness 1

  /** A menu entry. `ingredients` is the recipe: ingredient names in order,
      possibly repeated, possibly empty. */
  datatype MenuItem = MenuItem(name: string, price: int, category: string, ingredients: seq<string>)

  /** A stocked ingredient, counted in `unit`s. The threshold defaults to
      DefaultMinStock when it is not given. */
  datatype InventoryItem = InventoryItem(name: string, quantity: int, unit: string, minStock: int := DefaultMinStock)

  /** Threshold an inventory item gets when none is given. */
  const DefaultMinStock: int := 10

  /** Low stock means at or below the item's threshold. */
  predicate IsLowStock(item: InventoryItem) {
    item.quantity <= item.minStock
  }

  datatype Status = Pending | Completed | Cancelled

  /** One line of an order: name, price and category are copied from the
      menu entry when the line is added. */
  datatype Line = Line(name: string, price: int, quantity: Quantity, category: string, subtotal: int)

  datatype Order = Order(id: int, customer: string, items: seq<Line>, total: int, status: Status)

  /** The customer box's pre-filled name. A cleared box gives the empty
      name, which is taken as it is. */
  const WalkIn: string := "Walk-in"

  /** Everything the shop can refuse, one constructor per refusal. */
  datatype Error =
    | NameRequired
    | PriceNotPositive
    | CategoryRequired
    | InvalidStockEntry
    | OrderInProgress
    | NoCurrentOrder
    | NoItemSelected
    | UnknownItem(name: string)
    | InsufficientStock(ingredient: string)
    | EmptyOrder

  /** Sum of the subtotals of the lines. */
  function SumSubtotals(items: seq<Line>): int
  {
    if |items| == 0 then 0 else items[0].subtotal + SumSubtotals(items[1..])
  }

  lemma {:induction false} SumSubtotalsSnoc(items: seq<Line>, l: Line)
    ensures SumSubtotals(items + [l]) == SumSubtotals(items) + l.subtotal
  {
    if |items| == 0 {
      assert items + [l] == [l];
    } else {
      SumSubtotalsSnoc(items[1..], l);
      assert (items + [l])[1..] == items[1..] + [l];
    }
  }

  /** Each line's subtotal is its price times its quantity. */
  ghost predicate LinesPriced(items: seq<Line>) {
    forall i :: 0 <= i < |items| ==> items[i].subtotal == items[i].price * items[i].quantity
  }

  /** The order's total equals the sum of its lines' subtotals. */
  ghost predicate Reconciles(o: Order) {
    LinesPriced(o.items) && o.total == SumSubtotals(o.items)
  }

  /** A freshly started order: pending, no lines, nothing owed. */
  function NewOrder(id: int, customer: string): (o: Order)
    ensures o.id == id && o.customer == customer
    ensures o.status == Pending && |o.items| == 0
    ensures o.total == 0 && Reconciles(o)
  {
    Order(id, customer, [], 0, Pending)
  }

  /** Appends one line snapshotting the menu entry's name, price and category,
      and raises the total by the line's subtotal; an order whose total
      matched its lines still does. */
  function AddItem(o: Order, item: MenuItem, quantity: Quantity): (r: Order)
    ensures r.id == o.id && r.customer == o.customer && r.status == o.status
    ensures |r.items| == |o.items| + 1 && r.items[..|o.items|] == o.items
    ensures var l := r.items[|o.items|];
      l.name == item.name && l.price == item.price && l.category == item.category
      && l.quantity == quantity && l.subtotal == item.price * quantity
    ensures r.total == o.total + item.price * quantity
    ensures Reconciles(o) ==> Reconciles(r)
  {
    var l := Line(item.name, item.price, quantity, item.category, item.price * quantity);
    SumSubtotalsSnoc(o.items, l);
    Order(o.id, o.customer, o.items + [l], o.total + l.subtotal, o.status)
  }

  /** Lines with positive prices add up to a positive total. */
  lemma {:induction false} PositiveLinesPositiveSum(items: seq<Line>)
    requires |items| >= 1
    requires LinesPriced(items)
    requires forall i :: 0 <= i < |items| ==> items[i].price > 0
    ensures SumSubtotals(items) > 0
  {
    assert items[0].subtotal == items[0].price * items[0].quantity;
    assert items[0].subtotal > 0;
    if |items| > 1 {
      PositiveLinesPositiveSum(items[1..]);
    }
  }
}

=== FILE: history.dfy ===
/** Aggregates over the order history: the completed orders, what they
    brought in, and how many of each item they sold. */
module History {
  import opened Sequences
  import opened OrderedMaps
  import opened Entities

  /** The completed orders, in history order. */
  function CompletedOrders(orders: seq<Order>): (r: seq<Order>)
    ensures |r| <= |orders|
    ensures forall i :: 0 <= i < |r| ==> r[i].status == Completed
  {
    if |orders| == 0 then []
    else (if orders[0].status == Completed then [orders[0]] else []) + CompletedOrders(orders[1..])
  }

  /** An order is among the completed ones exactly when it is in the history
      with status completed. */
  lemma {:induction false} CompletedMembers(orders: seq<Order>)
    ensures forall o :: o in CompletedOrders(orders) <==> o in orders && o.status == Completed
  {
    if |orders| > 0 {
      CompletedMembers(orders[1..]);
      assert orders == [orders[0]] + orders[1..];
    }
  }

  lemma {:induction false} CompletedSnoc(orders: seq<Order>, o: Order)
    ensures CompletedOrders(orders + [o]) == CompletedOrders(orders) + (if o.status == Completed then [o] else [])
  {
    if |orders| == 0 {
      assert orders + [o] == [o];
    } else {
      var h := if orders[0].status == Completed then [orders[0]] else [];
      CompletedSnoc(orders[1..], o);
      assert (orders + [o])[1..] == orders[1..] + [o];
      assert CompletedOrders(orders + [o]) == h + CompletedOrders(orders[1..] + [o]);
      assert CompletedOrders(orders) == h + CompletedOrders(orders[1..]);
    }
  }

  /** Sum of the orders' totals. */
  function SumTotals(orders: seq<Order>): int
  {
    if |orders| == 0 then 0 else orders[0].total + SumTotals(orders[1..])
  }

  lemma {:induction false} SumTotalsSnoc(orders: seq<Order>, o: Order)
    ensures SumTotals(orders + [o]) == SumTotals(orders) + o.total
  {
    if |orders| == 0 {
      assert orders + [o] == [o];
    } else {
      SumTotalsSnoc(orders[1..], o);
      assert (orders + [o])[1..] == orders[1..] + [o];
    }
  }

  /** Money taken by the completed orders of a history. */
  ghost function CompletedSales(orders: seq<Order>): int
  {
    SumTotals(CompletedOrders(orders))
  }

  /** Appending an order to the history adds its total to the completed
      sales exactly when it is completed. */
  lemma {:induction false} CompletedSalesSnoc(orders: seq<Order>, o: Order)
    ensures CompletedSales(orders + [o]) == CompletedSales(orders) + (if o.status == Completed then o.total else 0)
  {
    CompletedSnoc(orders, o);
    if o.status == Completed {
      SumTotalsSnoc(CompletedOrders(orders), o);
    } else {
      assert CompletedOrders(orders) + [] == CompletedOrders(orders);
    }
  }

  /** All lines of the orders, order by order. */
  function AllLines(orders: seq<Order>): seq<Line>
  {
    if |orders| == 0 then [] else orders[0].items + AllLines(orders[1..])
  }

  /** The names of the lines, one per line. */
  function Names(lines: seq<Line>): (ns: seq<string>)
    ensures |ns| == |lines|
    ensures forall i :: 0 <= i < |lines| ==> ns[i] == lines[i].name
  {
    seq(|lines|, i requires 0 <= i < |lines| => lines[i].name)
  }

  /** Units of item `name` sold by the lines. */
  ghost function Sold(lines: seq<Line>, name: string): int
  {
    if |lines| == 0 then 0
    else (if lines[0].name == name then lines[0].quantity else 0) + Sold(lines[1..], name)
  }

  lemma {:induction false} SoldSnoc(lines: seq<Line>, l: Line, name: string)
    ensures Sold(lines + [l], name) == Sold(lines, name) + (if l.name == name then l.quantity else 0)
  {
    if |lines| == 0 {
      assert lines + [l] == [l];
    } else {
      SoldSnoc(lines[1..], l, name);
      assert (lines + [l])[1..] == lines[1..] + [l];
    }
  }

  lemma {:induction false} SoldAppend(a: seq<Line>, b: seq<Line>, name: string)
    ensures Sold(a + b, name) == Sold(a, name) + Sold(b, name)
  {
    if |a| == 0 {
      assert a + b == b;
    } else {
      SoldAppend(a[1..], b, name);
      assert (a + b)[1..] == a[1..] + b;
    }
  }

  /** Units of item `name` sold by the completed orders of a history: over
      the completed orders, the quantities of their lines for that item. */
  ghost function QuantitySold(orders: seq<Order>, name: string): int
  {
    if |orders| == 0 then 0
    else
      (if orders[0].status == Completed then Sold(orders[0].items, name) else 0) + QuantitySold(orders[1..], name)
  }

  /** Tallying the lines of the completed orders counts what they sold. */
  lemma {:induction false} SoldCompletedOrders(orders: seq<Order>, name: string)
    ensures Sold(AllLines(CompletedOrders(orders)), name) == QuantitySold(orders, name)
  {
    if |orders| > 0 {
      SoldCompletedOrders(orders[1..], name);
      var rest := CompletedOrders(orders[1..]);
      if orders[0].status == Completed {
        assert CompletedOrders(orders) == [orders[0]] + rest;
        assert AllLines(CompletedOrders(orders)) == orders[0].items + AllLines(rest);
        SoldAppend(orders[0].items, AllLines(rest), name);
      } else {
        assert CompletedOrders(orders) == rest;
      }
    }
  }

  /** The report's popularity count: walks the lines in order, adding each
      line's quantity to its item's running count, a new item entering the
      count when it is first met. */
  function Tally(lines: seq<Line>): (t: OrderedMap<int>)
    ensures Valid(t)
  {
    if |lines| == 0 then Empty()
    else
      var t0 := Tally(lines[..|lines| - 1]);
      var l := lines[|lines| - 1];
      Put(t0, l.name, Get(t0, l.name, 0) + l.quantity)
  }

  lemma {:induction false} NamesSnoc(lines: seq<Line>)
    requires |lines| > 0
    ensures Names(lines) == Names(lines[..|lines| - 1]) + [lines[|lines| - 1].name]
  {
  }

  lemma {:induction false} TallySnocKeys(lines: seq<Line>)
    requires |lines| > 0
    ensures var t0 := Tally(lines[..|lines| - 1]);
      var x := lines[|lines| - 1].name;
      Tally(lines).keys == if x in t0.keys then t0.keys else t0.keys + [x]
  {
    var t0 := Tally(lines[..|lines| - 1]);
    assert lines[|lines| - 1].name in t0.keys <==> lines[|lines| - 1].name in t0.entries;
  }

  /** The count lists every sold item once, in the order items were first
      sold. */
  lemma {:induction false} TallyKeysFirstSeen(lines: seq<Line>)
    ensures FirstSeenOrder(Tally(lines).keys, Names(lines))
  {
    if |lines| > 0 {
      var pre := lines[..|lines| - 1];
      TallyKeysFirstSeen(pre);
      TallySnocKeys(lines);
      NamesSnoc(lines);
      FirstSeenSnoc(Tally(pre).keys, Names(pre), lines[|lines| - 1].name, Tally(lines).keys, Names(lines));
    }
  }

  /** One more line adds its quantity to its item's count and leaves every
      other count as it was. */
  lemma {:induction false} TallySnocEntry(lines: seq<Line>, k: string)
    requires |lines| > 0
    ensures var t0 := Tally(lines[..|lines| - 1]);
      var l := lines[|lines| - 1];
      && (k in Tally(lines).entries <==> k in t0.entries || k == l.name)
      && (k in Tally(lines).entries ==>
            Tally(lines).entries[k] == (if k in t0.entries then t0.entries[k] else 0) + (if k == l.name then l.quantity else 0))
  {
  }

  /** Each counted item's count is the quantity the lines sold of it, and an
      item missing from the count sold nothing. */
  lemma {:induction false} TallyCountsSold(lines: seq<Line>)
    ensures forall k :: k in Tally(lines).entries ==> Tally(lines).entries[k] == Sold(lines, k)
    ensures forall k :: k !in Tally(lines).entries ==> Sold(lines, k) == 0
  {
    if |lines| > 0 {
      var pre := lines[..|lines| - 1];
      var l := lines[|lines| - 1];
      TallyCountsSold(pre);
      assert lines == pre + [l];
      forall k
        ensures k in Tally(lines).entries ==> Tally(lines).entries[k] == Sold(lines, k)
        ensures k !in Tally(lines).entries ==> Sold(lines, k) == 0
      {
        TallySnocEntry(lines, k);
        SoldSnoc(pre, l, k);
      }
    }
  }

  /** Quantities never increase along the sequence. */
  ghost predicate NonIncreasing(ps: seq<(string, int)>) {
    forall i, j :: 0 <= i < j < |ps| ==> ps[i].1 >= ps[j].1
  }

  /** No name appears twice. */
  ghost predicate DistinctNames(ps: seq<(string, int)>) {
    forall i, j :: 0 <= i < j < |ps| ==> ps[i].0 != ps[j].0
  }

  /** Inserts p in front of the first entry it does not fall below. */
  function InsertDesc(p: (string, int), ps: seq<(string, int)>): (r: seq<(string, int)>)
    requires NonIncreasing(ps)
    ensures NonIncreasing(r)
    ensures multiset(r) == multiset(ps) + multiset{p}
    ensures |r| == |ps| + 1 && (r[0] == p || (|ps| > 0 && r[0] == ps[0]))
  {
    if |ps| == 0 then [p]
    else if p.1 >= ps[0].1 then [p] + ps
    else
      var r' := InsertDesc(p, ps[1..]);
      assert ps == [ps[0]] + ps[1..];
      assert r'[0].1 <= ps[0].1;
      [ps[0]] + r'
  }

  lemma {:induction false} InsertDescDistinct(p: (string, int), ps: seq<(string, int)>)
    requires NonIncreasing(ps) && DistinctNames(ps)
    requires forall i :: 0 <= i < |ps| ==> ps[i].0 != p.0
    ensures DistinctNames(InsertDesc(p, ps))
  {
    if |ps| > 0 && p.1 < ps[0].1 {
      InsertDescDistinct(p, ps[1..]);
      var r' := InsertDesc(p, ps[1..]);
      forall i | 0 <= i < |r'|
        ensures r'[i].0 != ps[0].0
      {
        assert r'[i] in multiset(ps[1..]) + multiset{p};
        if r'[i] != p {
          assert r'[i] in ps[1..];
        }
      }
      assert InsertDesc(p, ps) == [ps[0]] + r';
    }
  }

  /** Orders the counts by non-increasing quantity, keeping every entry. */
  function SortDesc(ps: seq<(string, int)>): (r: seq<(string, int)>)
    ensures NonIncreasing(r)
    ensures forall q :: q in r <==> q in ps
    ensures multiset(r) == multiset(ps)
  {
    if |ps| == 0 then []
    else
      assert ps == [ps[0]] + ps[1..];
      var r := InsertDesc(ps[0], SortDesc(ps[1..]));
      assert forall q :: q in r <==> q in multiset(r);
      r
  }

  lemma {:induction false} SortDescDistinct(ps: seq<(string, int)>)
    requires DistinctNames(ps)
    ensures DistinctNames(SortDesc(ps))
  {
    if |ps| > 0 {
      SortDescDistinct(ps[1..]);
      var s' := SortDesc(ps[1..]);
      forall i | 0 <= i < |s'|
        ensures s'[i].0 != ps[0].0
      {
        assert s'[i] in ps[1..];
        var j :| 0 <= j < |ps[1..]| && ps[1..][j] == s'[i];
        assert ps[j + 1] == s'[i];
      }
      InsertDescDistinct(ps[0], s');
    }
  }

  /** The report's popular-items table: for every item sold by a completed
      order, its name and total quantity, by non-increasing quantity. */
  function Popularity(orders: seq<Order>): (r: seq<(string, int)>)
    ensures NonIncreasing(r)
  {
    var t := Tally(AllLines(CompletedOrders(orders)));
    SortDesc(Items(t))
  }

  lemma {:induction false} SoldNonNegative(lines: seq<Line>, name: string)
    ensures Sold(lines, name) >= 0
    ensures name in Names(lines) ==> Sold(lines, name) > 0
  {
    if |lines| > 0 {
      SoldNonNegative(lines[1..], name);
      assert Names(lines) == [lines[0].name] + Names(lines[1..]);
    }
  }

  /** The sorted table of a tally of lines lists each item once. */
  lemma {:induction false} TableDistinct(lines: seq<Line>)
    ensures DistinctNames(SortDesc(Items(Tally(lines))))
  {
    var items := Items(Tally(lines));
    assert DistinctNames(items);
    SortDescDistinct(items);
  }

  /** Each entry of the sorted table of a tally carries the quantity the
      lines sold of its item. */
  lemma {:induction false} TableQuantities(lines: seq<Line>)
    ensures forall i :: 0 <= i < |SortDesc(Items(Tally(lines)))| ==>
              SortDesc(Items(Tally(lines)))[i].1 == Sold(lines, SortDesc(Items(Tally(lines)))[i].0)
  {
    var t := Tally(lines);
    var items := Items(t);
    var r := SortDesc(items);
    TallyCountsSold(lines);
    forall i | 0 <= i < |r|
      ensures r[i].1 == Sold(lines, r[i].0)
    {
      assert r[i] in items;
    }
  }

  /** The table has an entry for `name`. */
  ghost predicate Lists(r: seq<(string, int)>, name: string) {
    exists i :: 0 <= i < |r| && r[i].0 == name
  }

  /** An item the lines sold is in the sorted table of their tally. */
  lemma {:induction false} TableHasSold(lines: seq<Line>, name: string)
    requires Sold(lines, name) > 0
    ensures Lists(SortDesc(Items(Tally(lines))), name)
  {
    var t := Tally(lines);
    var items := Items(t);
    var r := SortDesc(items);
    TallyCountsSold(lines);
    assert name in t.keys;
    var j :| 0 <= j < |t.keys| && t.keys[j] == name;
    assert items[j] in r;
    var i :| 0 <= i < |r| && r[i] == items[j];
    assert r[i].0 == name;
  }

  /** Every item in the sorted table of a tally was sold by the lines. */
  lemma {:induction false} TableOnlySold(lines: seq<Line>, name: string)
    requires Lists(SortDesc(Items(Tally(lines))), name)
    ensures Sold(lines, name) > 0
  {
    var t := Tally(lines);
    var items := Items(t);
    var r := SortDesc(items);
    TallyKeysFirstSeen(lines);
    var i :| 0 <= i < |r| && r[i].0 == name;
    assert r[i] in items;
    var j :| 0 <= j < |items| && items[j] == r[i];
    assert t.keys[j] == name;
    assert name in Names(lines);
    SoldNonNegative(lines, name);
  }

  /** The popular-items table is exact: its quantities never increase down
      the table, no item is listed twice, each listed item carries the
      quantity completed orders sold of it, and an item is listed exactly when
      completed orders sold some of it. Cancelled orders do not count. */
  lemma {:induction false} PopularityCorrect(orders: seq<Order>)
    ensures NonIncreasing(Popularity(orders))
    ensures DistinctNames(Popularity(orders))
    ensures forall i :: 0 <= i < |Popularity(orders)| ==>
              Popularity(orders)[i].1 == QuantitySold(orders, Popularity(orders)[i].0)
    ensures forall name :: Lists(Popularity(orders), name) <==> QuantitySold(orders, name) > 0
  {
    var lines := AllLines(CompletedOrders(orders));
    var r := Popularity(orders);
    assert r == SortDesc(Items(Tally(lines)));
    TableDistinct(lines);
    TableQuantities(lines);
    forall i | 0 <= i < |r|
      ensures r[i].1 == QuantitySold(orders, r[i].0)
    {
      SoldCompletedOrders(orders, r[i].0);
    }
    forall name
      ensures Lists(r, name) <==> QuantitySold(orders, name) > 0
    {
      SoldCompletedOrders(orders, name);
      if Lists(r, name) {
        TableOnlySold(lines, name);
      }
      if QuantitySold(orders, name) > 0 {
        TableHasSold(lines, name);
      }
    }
  }
}

=== FILE: ledger.dfy ===
/** The inventory: the restock form's upsert, the low-stock alert, the stock
    check made before a line is added to an order, and the deduction made when
    an order completes. */
module Ledger {
  import opened Sequences
  import opened Results
  import opened OrderedMaps
  import opened Entities

  /** Inventory entries keyed by ingredient name, in insertion order. */
  type Inventory = OrderedMap<InventoryItem>

  /** Every entry is filed under its own name, as the restock form files it. */
  ghost predicate StockOk(inv: Inventory) {
    Valid(inv) && forall k :: k in inv.entries ==> inv.entries[k].name == k
  }

  /** Restock or add an ingredient. Refused unless the name and unit are
      non-empty and the quantity is positive. A known ingredient only gains
      the quantity (its unit and threshold stay as they were, whatever the form
      says); an unknown one is added at the end with the given quantity, unit
      and threshold. No other entry changes. */
  function UpsertStock(inv: Inventory, name: string, quantity: int, unit: string, minStock: int)
    : (r: Result<Inventory, Error>)
    requires Valid(inv)
    ensures r.Err? <==> name == "" || quantity <= 0 || unit == ""
    ensures r.Err? ==> r.error == InvalidStockEntry
    ensures r.Ok? ==> Valid(r.value) && name in r.value.entries
    ensures r.Ok? ==> forall k :: k != name ==> (k in r.value.entries <==> k in inv.entries)
    ensures r.Ok? ==> forall k :: k != name && k in inv.entries ==> r.value.entries[k] == inv.entries[k]
    ensures r.Ok? && name in inv.entries ==>
              && r.value.keys == inv.keys
              && r.value.entries[name].quantity == inv.entries[name].quantity + quantity
              && r.value.entries[name].unit == inv.entries[name].unit
              && r.value.entries[name].minStock == inv.entries[name].minStock
              && r.value.entries[name].name == inv.entries[name].name
    ensures r.Ok? && name !in inv.entries ==>
              && r.value.keys == inv.keys + [name]
              && r.value.entries[name] == InventoryItem(name, quantity, unit, minStock)
    ensures r.Ok? && StockOk(inv) ==> StockOk(r.value)
  {
    if name != "" && quantity > 0 && unit != "" then
      if name in inv.entries then
        var old_ := inv.entries[name];
        Ok(Put(inv, name, old_.(quantity := old_.quantity + quantity)))
      else
        Ok(Put(inv, name, InventoryItem(name, quantity, unit, minStock)))
    else
      Err(InvalidStockEntry)
  }

  /** Names of the low-stock entries filed under `keys`, in that order. */
  function LowStockAmong(keys: seq<string>, entries: map<string, InventoryItem>): (r: seq<string>)
    requires forall k :: k in keys ==> k in entries
    ensures forall x :: x in r <==> exists k :: k in keys && IsLowStock(entries[k]) && entries[k].name == x
    ensures |r| <= |keys|
  {
    if |keys| == 0 then []
    else (if IsLowStock(entries[keys[0]]) then [entries[keys[0]].name] else []) + LowStockAmong(keys[1..], entries)
  }

  /** The alert over one key: its entry's name when it is low, else nothing. */
  lemma {:induction false} LowStockOne(k: string, entries: map<string, InventoryItem>)
    requires k in entries
    ensures LowStockAmong([k], entries) == if IsLowStock(entries[k]) then [entries[k].name] else []
  {
    assert [k][1..] == [];
  }

  /** The alert over two runs of keys is the alert over each, one after the
      other: with LowStockOne this fixes the order of the names as the
      inventory's key order, one name per low entry. */
  lemma {:induction false} LowStockAmongAppend(keys1: seq<string>, keys2: seq<string>, entries: map<string, InventoryItem>)
    requires forall k :: k in keys1 ==> k in entries
    requires forall k :: k in keys2 ==> k in entries
    ensures forall k :: k in keys1 + keys2 ==> k in entries
    ensures LowStockAmong(keys1 + keys2, entries) == LowStockAmong(keys1, entries) + LowStockAmong(keys2, entries)
  {
    if |keys1| == 0 {
      assert keys1 + keys2 == keys2;
    } else {
      var tail := keys1[1..];
      var k := keys1[0];
      var head: seq<string> := if IsLowStock(entries[k]) then [entries[k].name] else [];
      assert forall x :: x in tail ==> x in keys1;
      assert LowStockAmong(keys1 + keys2, entries) == head + LowStockAmong(tail + keys2, entries) by {
        assert (keys1 + keys2)[0] == k;
        assert (keys1 + keys2)[1..] == tail + keys2;
      }
      LowStockAmongAppend(tail, keys2, entries);
      Regroup(LowStockAmong(keys1 + keys2, entries), LowStockAmong(tail + keys2, entries),
              LowStockAmong(keys1, entries), LowStockAmong(tail, entries), LowStockAmong(keys2, entries), head);
    }
  }

  /** The low-stock alert: the names of exactly the entries at or below their
      threshold, in inventory order (LowStockAmongAppend, LowStockOne). */
  function LowStockAlert(inv: Inventory): (r: seq<string>)
    requires Valid(inv)
    ensures forall x :: x in r <==> exists k :: k in inv.entries && IsLowStock(inv.entries[k]) && inv.entries[k].name == x
  {
    LowStockAmong(inv.keys, inv.entries)
  }

  /** When every entry is filed under its own name, the alert names exactly
      the ingredients at or below their threshold. */
  lemma {:induction false} LowStockAlertKeys(inv: Inventory)
    requires StockOk(inv)
    ensures forall k :: k in LowStockAlert(inv) <==> k in inv.entries && IsLowStock(inv.entries[k])
  {
    var r := LowStockAlert(inv);
    forall k | k in r
      ensures k in inv.entries && IsLowStock(inv.entries[k])
    {
      var j :| j in inv.entries && IsLowStock(inv.entries[j]) && inv.entries[j].name == k;
      assert j == k;
    }
  }

  /** An ingredient is short for a line of `quantity` when it is stocked with
      fewer than `quantity` units. Unstocked ingredients are never short. */
  predicate Short(inv: map<string, InventoryItem>, ingredient: string, quantity: int) {
    ingredient in inv && inv[ingredient].quantity < quantity
  }

  /** The stock check for one line: the first recipe ingredient, in recipe
      order, that is short, or None when there is none. */
  function FirstShort(inv: map<string, InventoryItem>, recipe: seq<string>, quantity: int)
    : (r: Option<string>)
    ensures r.None? <==> forall i :: 0 <= i < |recipe| ==> !Short(inv, recipe[i], quantity)
    ensures r.Some? ==> r.value in recipe && Short(inv, r.value, quantity)
    ensures r.Some? ==> forall j :: 0 <= j < IndexOf(recipe, r.value) ==> !Short(inv, recipe[j], quantity)
  {
    if |recipe| == 0 then None
    else if Short(inv, recipe[0], quantity) then Some(recipe[0])
    else FirstShort(inv, recipe[1..], quantity)
  }

  /** The availability loop as the order page runs it: walk the recipe,
      skip unstocked ingredients, stop at the first one with fewer units than
      the line's quantity. It reports the same verdict and ingredient as
      FirstShort. */
  method CheckAvailability(inv: map<string, InventoryItem>, recipe: seq<string>, quantity: int)
    returns (canMake: bool, missing: string)
    ensures canMake <==> FirstShort(inv, recipe, quantity).None?
    ensures !canMake ==> missing == FirstShort(inv, recipe, quantity).value
  {
    canMake := true;
    missing := "";
    var i := 0;
    while i < |recipe|
      invariant 0 <= i <= |recipe|
      invariant canMake ==> FirstShort(inv, recipe, quantity) == FirstShort(inv, recipe[i..], quantity)
      invariant !canMake ==> FirstShort(inv, recipe, quantity) == Some(missing)
    {
      var ingredient := recipe[i];
      if ingredient in inv {
        if inv[ingredient].quantity < quantity {
          canMake := false;
          missing := ingredient;
          break;
        }
      }
      i := i + 1;
    }
  }

  /** Units of ingredient k the recipe uses for `quantity` items: one unit per
      occurrence per item. */
  ghost function RecipeUse(recipe: seq<string>, quantity: int, k: string): int
  {
    quantity * Count(recipe, k)
  }

  lemma {:induction false} RecipeUseCons(recipe: seq<string>, quantity: int, k: string)
    requires |recipe| > 0
    ensures RecipeUse(recipe, quantity, k)
            == (if recipe[0] == k then quantity else 0) + RecipeUse(recipe[1..], quantity, k)
  {
    var c := Count(recipe[1..], k);
    if recipe[0] == k {
      assert quantity * (1 + c) == quantity + quantity * c;
    }
  }

  /** One deduction of `quantity` from ingredient's entry, if it is stocked. */
  function DeductOne(inv: Inventory, ingredient: string, quantity: int): (r: Inventory)
    requires Valid(inv)
    ensures Valid(r) && r.keys == inv.keys
    ensures forall k :: k in r.entries <==> k in inv.entries
    ensures forall k :: k in inv.entries ==>
              r.entries[k] == inv.entries[k].(quantity := inv.entries[k].quantity - (if k == ingredient then quantity else 0))
  {
    if ingredient in inv.entries then
      var e := inv.entries[ingredient];
      Put(inv, ingredient, e.(quantity := e.quantity - quantity))
    else inv
  }

  /** Deducts `quantity` from the stocked entry of every recipe occurrence,
      in recipe order, skipping unstocked ingredients. */
  function DeductRecipe(inv: Inventory, recipe: seq<string>, quantity: int): (r: Inventory)
    requires Valid(inv)
    ensures Valid(r) && r.keys == inv.keys
    ensures forall k :: k in r.entries <==> k in inv.entries
    decreases |recipe|
  {
    if |recipe| == 0 then inv
    else DeductRecipe(DeductOne(inv, recipe[0], quantity), recipe[1..], quantity)
  }

  /** Every stocked entry drops by the recipe's use of it and nothing else
      about it changes. */
  lemma {:induction false} DeductRecipeExact(inv: Inventory, recipe: seq<string>, quantity: int)
    requires Valid(inv)
    ensures forall k :: k in inv.entries ==>
              DeductRecipe(inv, recipe, quantity).entries[k]
              == inv.entries[k].(quantity := inv.entries[k].quantity - RecipeUse(recipe, quantity, k))
    decreases |recipe|
  {
    if |recipe| > 0 {
      var mid := DeductOne(inv, recipe[0], quantity);
      DeductRecipeExact(mid, recipe[1..], quantity);
      forall k | k in inv.entries
        ensures DeductRecipe(inv, recipe, quantity).entries[k]
                == inv.entries[k].(quantity := inv.entries[k].quantity - RecipeUse(recipe, quantity, k))
      {
        RecipeUseCons(recipe, quantity, k);
      }
    }
  }

  /** Units of ingredient k consumed by the lines, with each line's recipe
      read from the menu as it stands. */
  ghost function Consumption(menu: map<string, MenuItem>, lines: seq<Line>, k: string): int
    requires forall i :: 0 <= i < |lines| ==> lines[i].name in menu
  {
    if |lines| == 0 then 0
    else
      RecipeUse(menu[lines[0].name].ingredients, lines[0].quantity, k) + Consumption(menu, lines[1..], k)
  }

  /** The deduction when an order completes: for each line, in order, the
      current recipe of the line's item is deducted at the line's quantity.
      Every stocked entry ends up lower by exactly its consumption; units,
      thresholds, names and the inventory order stay as they were. */
  function DeductLines(inv: Inventory, menu: map<string, MenuItem>, lines: seq<Line>): (r: Inventory)
    requires Valid(inv)
    requires forall i :: 0 <= i < |lines| ==> lines[i].name in menu
    ensures Valid(r) && r.keys == inv.keys
    ensures forall k :: k in r.entries <==> k in inv.entries
    ensures forall k :: k in inv.entries ==>
              r.entries[k] == inv.entries[k].(quantity := inv.entries[k].quantity - Consumption(menu, lines, k))
    decreases |lines|
  {
    if |lines| == 0 then inv
    else
      var recipe := menu[lines[0].name].ingredients;
      DeductRecipeExact(inv, recipe, lines[0].quantity);
      DeductLines(DeductRecipe(inv, recipe, lines[0].quantity), menu, lines[1..])
  }
}

=== FILE: ordered_maps.dfy ===
/** A string-keyed dictionary that remembers insertion order, as a Python
    dict does: the shop's menu, its inventory, the menu grouping by category
    and the popularity tally are all dictionaries of this kind. */
module OrderedMaps {
  import opened Sequences

  /** `keys` lists the keys in insertion order; `entries` holds the values. */
  datatype OrderedMap<V> = OrderedMap(keys: seq<string>, entries: map<string, V>)

  /** Every key is listed exactly once, and only keys are listed. */
  ghost predicate Valid<V>(m: OrderedMap<V>) {
    && Distinct(m.keys)
    && (forall k :: k in m.entries <==> k in m.keys)
  }

  function Empty<V>(): (m: OrderedMap<V>)
    ensures Valid(m)
    ensures |m.keys| == 0 && |m.entries| == 0
  {
    OrderedMap([], map[])
  }

  /** `m[k] = v`: a new key goes to the end of the iteration order, an
      existing key keeps its position and only its value changes. */
  function Put<V>(m: OrderedMap<V>, k: string, v: V): (r: OrderedMap<V>)
    requires Valid(m)
    ensures Valid(r)
    ensures k in r.entries && r.entries[k] == v
    ensures forall j :: j != k ==> (j in r.entries <==> j in m.entries)
    ensures forall j :: j != k && j in m.entries ==> r.entries[j] == m.entries[j]
    ensures k in m.entries ==> r.keys == m.keys
    ensures k !in m.entries ==> r.keys == m.keys + [k]
  {
    if k in m.entries then OrderedMap(m.keys, m.entries[k := v])
    else OrderedMap(m.keys + [k], m.entries[k := v])
  }

  /** `m.get(k, d)`. */
  function Get<V>(m: OrderedMap<V>, k: string, d: V): (v: V)
    ensures k in m.entries ==> v == m.entries[k]
    ensures k !in m.entries ==> v == d
  {
    if k in m.entries then m.entries[k] else d
  }

  /** The values stored under `keys`, in that order. */
  function ValuesOf<V>(keys: seq<string>, entries: map<string, V>): (vs: seq<V>)
    requires forall k :: k in keys ==> k in entries
    ensures |vs| == |keys|
    ensures forall i :: 0 <= i < |keys| ==> vs[i] == entries[keys[i]]
  {
    if |keys| == 0 then [] else [entries[keys[0]]] + ValuesOf(keys[1..], entries)
  }

  /** `m.values()`, in insertion order. */
  function Values<V>(m: OrderedMap<V>): (vs: seq<V>)
    requires Valid(m)
    ensures |vs| == |m.keys|
    ensures forall i :: 0 <= i < |m.keys| ==> vs[i] == m.entries[m.keys[i]]
  {
    ValuesOf(m.keys, m.entries)
  }

  /** The (key, value) pairs stored under `keys`, in that order. */
  function ItemsOf<V>(keys: seq<string>, entries: map<string, V>): (ps: seq<(string, V)>)
    requires forall k :: k in keys ==> k in entries
    ensures |ps| == |keys|
    ensures forall i :: 0 <= i < |keys| ==> ps[i] == (keys[i], entries[keys[i]])
  {
    if |keys| == 0 then [] else [(keys[0], entries[keys[0]])] + ItemsOf(keys[1..], entries)
  }

  /** `m.items()`, in insertion order. */
  function Items<V>(m: OrderedMap<V>): (ps: seq<(string, V)>)
    requires Valid(m)
    ensures |ps| == |m.keys|
    ensures forall i :: 0 <= i < |m.keys| ==> ps[i] == (m.keys[i], m.entries[m.keys[i]])
  {
    ItemsOf(m.keys, m.entries)
  }
}

=== FILE: report.dfy ===
/** The daily report: number of completed orders, sales, average order value
    and the popular-items table. */
module Report {
  import opened Entities
  import opened History
  import opened Shop

  /** The report's three metrics. Money in cents; the average is exact. */
  datatype Summary = Summary(totalOrders: nat, totalSales: int, average: real)

  /** Counts the completed orders, reports the running sales total, and
      averages it over the completed orders, or reports 0 when there are
      none rather than dividing by zero. */
  function DailySummary(s: Session): (r: Summary)
    ensures r.totalOrders == |CompletedOrders(s.orders)|
    ensures r.totalSales == s.dailySales
    ensures r.totalOrders == 0 ==> r.average == 0.0
    ensures r.totalOrders > 0 ==> r.average * (r.totalOrders as real) == r.totalSales as real
  {
    var n := |CompletedOrders(s.orders)|;
    Summary(n, s.dailySales, if n > 0 then s.dailySales as real / n as real else 0.0)
  }

  /** In every reachable session the reported sales are exactly the sum of
      the completed orders' totals: cancelled orders and the order being
      taken contribute nothing. */
  lemma {:induction false} SummaryMatchesHistory(menu: Catalog.Menu, inventory: Ledger.Inventory, actions: seq<Action>)
    requires Catalog.MenuOk(menu) && Ledger.StockOk(inventory)
    ensures var s := Run(Init(menu, inventory), actions);
      DailySummary(s).totalSales == SumTotals(CompletedOrders(s.orders))
  {
  }

  /** The report's popular-items table for a session. */
  function PopularItems(s: Session): (r: seq<(string, int)>)
    ensures NonIncreasing(r) && DistinctNames(r)
    ensures forall i :: 0 <= i < |r| ==> r[i].1 == QuantitySold(s.orders, r[i].0)
    ensures forall name :: Lists(r, name) <==> QuantitySold(s.orders, name) > 0
  {
    PopularityCorrect(s.orders);
    Popularity(s.orders)
  }
}

=== FILE: results.dfy ===
/** Failure-carrying wrappers: an optional value, and the outcome of an
    operation that the shop may reject. */
module Results {

  /** A lookup that may find nothing. */
  datatype Option<+T> = None | Some(value: T)

  /** Either the new value, or the reason the operation was refused. */
  datatype Result<+T, +E> = Ok(value: T) | Err(error: E)
}

=== FILE: scenarios.dfy ===
/** Worked sessions over small menus and inventories, with prices in cents. */
module Scenarios {
  import opened Sequences
  import opened Results
  import opened OrderedMaps
  import opened Entities
  import opened Catalog
  import opened Ledger
  import opened History
  import opened Shop

  const Espresso: MenuItem := MenuItem("Espresso", 250, "Coffee", ["Coffee beans", "Water"])
  const Latte: MenuItem := MenuItem("Latte", 450, "Coffee", ["Coffee beans", "Milk", "Water"])
  const Muffin: MenuItem := MenuItem("Muffin", 275, "Pastry", ["Flour", "Sugar", "Eggs"])

  function EspressoMenu(): (m: Menu)
    ensures MenuOk(m)
  {
    OrderedMap(["Espresso"], map["Espresso" := Espresso])
  }

  function BeansAndWater(beans: int, water: int): (inv: Inventory)
    ensures StockOk(inv)
    ensures "Coffee beans" in inv.entries && inv.entries["Coffee beans"].quantity == beans
    ensures "Water" in inv.entries && inv.entries["Water"].quantity == water
  {
    OrderedMap(["Coffee beans", "Water"],
      map["Coffee beans" := InventoryItem("Coffee beans", beans, "kg", 20),
          "Water" := InventoryItem("Water", water, "liters", 50)])
  }

  /** The session after starting a walk-in order and adding three
      espressos, with the given stock of beans and water. */
  function ThreeEspressos(beans: int, water: int): (r: Result<Session, Error>)
    requires beans >= 3 && water >= 3
    ensures r.Ok?
    ensures r.value.current.Some? && r.value.current.value.total == 750
    ensures r.value.current.value.items == [Line("Espresso", 250, 3, "Coffee", 750)]
    ensures r.value.current.value.id == 1 && r.value.current.value.customer == "Walk-in"
    ensures r.value.inventory == BeansAndWater(beans, water)
    ensures r.value.menu == EspressoMenu()
    ensures r.value.orders == [] && r.value.dailySales == 0
  {
    var s0 := Init(EspressoMenu(), BeansAndWater(beans, water));
    var s1 := StartOrder(s0, WalkIn).value;
    assert FirstShort(s1.inventory.entries, Espresso.ingredients, 3).None?;
    AddToOrder(s1, "Espresso", 3)
  }

  /** Three espressos from a stocked shop: the order totals 750 cents, and
      completing it leaves 97 units of beans and 197 of water and 750 cents
      of sales. */
  lemma EspressoSale()
    ensures var s3 := CompleteOrder(ThreeEspressos(100, 200).value);
      && s3.Ok?
      && s3.value.inventory.entries["Coffee beans"].quantity == 97
      && s3.value.inventory.entries["Water"].quantity == 197
      && s3.value.dailySales == 750
      && |s3.value.orders| == 1 && s3.value.orders[0].status == Completed
      && s3.value.orders[0].total == 750
      && s3.value.current.None?
  {
    var s2 := ThreeEspressos(100, 200).value;
    var lines := s2.current.value.items;
    assert Count(Espresso.ingredients, "Coffee beans") == 1;
    assert Count(Espresso.ingredients, "Water") == 1;
    assert Consumption(s2.menu.entries, lines, "Coffee beans") == 3;
    assert Consumption(s2.menu.entries, lines, "Water") == 3;
  }

  /** Each line is checked against the stock as it stands, not against what
      the earlier lines of the same order will use: with 4 units of beans two
      lines of 3 espressos both pass, and completing the order leaves -2. */
  lemma OversellWithinOneOrder()
    ensures var s2 := ThreeEspressos(4, 200).value;
      && AddToOrder(s2, "Espresso", 3).Ok?
      && var s3 := CompleteOrder(AddToOrder(s2, "Espresso", 3).value);
      && s3.Ok?
      && s3.value.inventory.entries["Coffee beans"].quantity == -2
  {
    var s2 := ThreeEspressos(4, 200).value;
    assert FirstShort(s2.inventory.entries, Espresso.ingredients, 3).None?;
    var s3 := AddToOrder(s2, "Espresso", 3).value;
    var lines := s3.current.value.items;
    assert lines == [Line("Espresso", 250, 3, "Coffee", 750), Line("Espresso", 250, 3, "Coffee", 750)];
    assert Count(Espresso.ingredients, "Coffee beans") == 1;
    assert Consumption(s3.menu.entries, lines[1..], "Coffee beans") == 3;
    assert Consumption(s3.menu.entries, lines, "Coffee beans") == 6;
  }

  lemma WaterParses()
    ensures Text.ParseIngredients("Water") == ["Water"]
  {
    assert Text.IsCleanLine("Water");
    Text.ParseJoin(["Water"]);
  }

  /** The three-espresso session after Espresso is re-entered at 300 cents
      with an ingredient box that parses to water alone (as "Water" does, by
      WaterParses). */
  function RecipeChanged(beans: int, water: int, text: string): (r: Result<Session, Error>)
    requires beans >= 3 && water >= 3
    requires Text.ParseIngredients(text) == ["Water"]
    ensures r.Ok?
    ensures WellFormed(r.value)
    ensures "Espresso" in r.value.menu.entries && r.value.menu.entries["Espresso"].ingredients == ["Water"]
    ensures r.value.menu.entries["Espresso"].price == 300
    ensures r.value.current.Some? && r.value.current.value.items == [Line("Espresso", 250, 3, "Coffee", 750)]
    ensures r.value.current.value.total == 750
    ensures r.value.inventory == BeansAndWater(beans, water)
    ensures r.value.dailySales == 0
  {
    AddMenuItem(ThreeEspressos(beans, water).value, "Espresso", 300, "Coffee", text)
  }

  /** Completion reads recipes from the menu as it stands, while the line
      keeps the price it was added at: once Espresso has been re-entered with
      water alone (as RecipeChanged does, with 100 beans and 200 water), completing the three-espresso order
      deducts no beans, and the sale still counts 750 cents. */
  lemma {:induction false} RecipeReadAtCompletion(s: Session)
    requires WellFormed(s)
    requires "Espresso" in s.menu.entries && s.menu.entries["Espresso"].ingredients == ["Water"]
    requires s.current.Some? && s.current.value.items == [Line("Espresso", 250, 3, "Coffee", 750)]
    requires s.current.value.total == 750 && s.dailySales == 0
    requires s.inventory == BeansAndWater(100, 200)
    ensures CompleteOrder(s).Ok?
    ensures CompleteOrder(s).value.inventory.entries["Coffee beans"].quantity == 100
    ensures CompleteOrder(s).value.inventory.entries["Water"].quantity == 197
    ensures CompleteOrder(s).value.dailySales == 750
  {
    var lines := s.current.value.items;
    assert Count(["Water"], "Coffee beans") == 0;
    assert Count(["Water"], "Water") == 1;
    assert Consumption(s.menu.entries, lines, "Coffee beans") == 0;
    assert Consumption(s.menu.entries, lines, "Water") == 3;
  }

  /** Re-entering Espresso with the ingredient box "Water" and then
      completing the three-espresso order from 100 beans and 200 water
      leaves the beans untouched and still records 750 cents. */
  lemma RecipeChangeThenComplete()
    ensures Text.ParseIngredients("Water") == ["Water"]
    ensures var s := RecipeChanged(100, 200, "Water").value;
      && CompleteOrder(s).Ok?
      && CompleteOrder(s).value.inventory.entries["Coffee beans"].quantity == 100
      && CompleteOrder(s).value.inventory.entries["Water"].quantity == 197
      && CompleteOrder(s).value.dailySales == 750
  {
    WaterParses();
    RecipeReadAtCompletion(RecipeChanged(100, 200, "Water").value);
  }

  /** An entry made without a threshold gets 10, and it is low stock exactly
      when at most 10 units are left: the threshold itself counts as low. */
  lemma {:induction false} DefaultThreshold(name: string, q: int, unit: string)
    ensures InventoryItem(name, q, unit).minStock == DefaultMinStock == 10
    ensures IsLowStock(InventoryItem(name, q, unit)) <==> q <= 10
  {
  }

  /** With only 2 units of beans, adding 5 espressos is refused naming the
      beans, and the order and inventory stay as they were. */
  lemma EspressoShortOfBeans()
    ensures var s0 := Init(EspressoMenu(), BeansAndWater(2, 200));
      var s1 := Apply(s0, StartNew(WalkIn));
      && AddToOrder(s1, "Espresso", 5) == Err(InsufficientStock("Coffee beans"))
      && Apply(s1, AddLine("Espresso", 5)) == s1
      && s1.current.value.items == []
      && s1.inventory.entries["Coffee beans"].quantity == 2
  {
    var s0 := Init(EspressoMenu(), BeansAndWater(2, 200));
    var s1 := Apply(s0, StartNew(WalkIn));
    assert s1 == StartOrder(s0, WalkIn).value;
    assert FirstShort(s1.inventory.entries, Espresso.ingredients, 5) == Some("Coffee beans");
  }

  /** A recipe none of whose ingredients the inventory tracks never fails
      the stock check, whatever the quantity. */
  lemma {:induction false} UntrackedIngredientIgnored(inv: map<string, InventoryItem>, recipe: seq<string>, q: int)
    requires forall i :: 0 <= i < |recipe| ==> recipe[i] !in inv
    ensures FirstShort(inv, recipe, q).None?
  {
  }

  function Sale(id: int, lines: seq<Line>, total: int): Order
  {
    Order(id, WalkIn, lines, total, Completed)
  }

  const Muffins: Line := Line("Muffin", 275, 2, "Pastry", 550)
  const OneLatte: Line := Line("Latte", 450, 1, "Coffee", 450)

  /** Orders 1 and 3 each completed with 2 muffins and 1 latte, and order 2,
      a latte, cancelled between them. */
  function DaysOrders(): seq<Order>
  {
    [Sale(1, [Muffins, OneLatte], 1000), Order(2, WalkIn, [OneLatte], 450, Cancelled), Sale(3, [Muffins, OneLatte], 1000)]
  }

  /** The day's history is one the shop can keep: finished orders numbered
      1, 2, 3 in the order they were finished. */
  lemma DaysHistoryOk()
    ensures HistoryOk(DaysOrders(), 4)
  {
    assert [Muffins, OneLatte][1..] == [OneLatte];
    assert SumSubtotals([OneLatte]) == 450;
    assert SumSubtotals([Muffins, OneLatte]) == 1000;
    assert Finalized(Sale(1, [Muffins, OneLatte], 1000));
    assert Finalized(Order(2, WalkIn, [OneLatte], 450, Cancelled));
  }

  lemma DaysLines()
    ensures AllLines(CompletedOrders(DaysOrders())) == [Muffins, OneLatte, Muffins, OneLatte]
  {
    var orders := DaysOrders();
    var done := [Sale(1, [Muffins, OneLatte], 1000), Sale(3, [Muffins, OneLatte], 1000)];
    assert CompletedOrders(orders[2..]) == [Sale(3, [Muffins, OneLatte], 1000)];
    assert CompletedOrders(orders[1..]) == [Sale(3, [Muffins, OneLatte], 1000)];
    assert CompletedOrders(orders) == done;
    assert AllLines(done[1..]) == [Muffins, OneLatte];
  }

  lemma DaysTally()
    ensures Tally([Muffins, OneLatte, Muffins, OneLatte]) == OrderedMap(["Muffin", "Latte"], map["Muffin" := 4, "Latte" := 2])
  {
    var lines := [Muffins, OneLatte, Muffins, OneLatte];
    assert [Muffins][..0] == [];
    assert Tally([]) == OrderedMap([], map[]);
    assert Tally([Muffins]) == OrderedMap(["Muffin"], map["Muffin" := 2]);
    assert [Muffins, OneLatte][..1] == [Muffins];
    assert Tally([Muffins, OneLatte]) == OrderedMap(["Muffin", "Latte"], map["Muffin" := 2, "Latte" := 1]);
    assert [Muffins, OneLatte, Muffins][..2] == [Muffins, OneLatte];
    assert Tally([Muffins, OneLatte, Muffins]) == OrderedMap(["Muffin", "Latte"], map["Muffin" := 4, "Latte" := 1]);
    assert lines[..3] == [Muffins, OneLatte, Muffins];
  }

  /** Two completed orders each buying 2 muffins and 1 latte: the table
      lists Muffin with 4 before Latte with 2. The cancelled order does not
      count. */
  lemma MuffinOutsellsLatte()
    ensures Popularity(DaysOrders()) == [("Muffin", 4), ("Latte", 2)]
  {
    DaysLines();
    DaysTally();
    var t := OrderedMap(["Muffin", "Latte"], map["Muffin" := 4, "Latte" := 2]);
    assert Items(t) == [("Muffin", 4), ("Latte", 2)];
  }
}

=== FILE: sequences.dfy ===
/** Generic facts about sequences used throughout the model: distinctness,
    first occurrence, occurrence counts and first-seen ordering. */
module Sequences {

  /** No element occurs twice in xs. */
  ghost predicate Distinct<T>(xs: seq<T>) {
    forall i, j :: 0 <= i < j < |xs| ==> xs[i] != xs[j]
  }

  /** Position of the first occurrence of x in xs. */
  ghost function IndexOf<T>(xs: seq<T>, x: T): (i: nat)
    requires x in xs
    ensures i < |xs| && xs[i] == x
    ensures forall j :: 0 <= j < i ==> xs[j] != x
  {
    if xs[0] == x then 0 else 1 + IndexOf(xs[1..], x)
  }

  /** Number of occurrences of x in xs. */
  ghost function Count<T>(xs: seq<T>, x: T): nat
  {
    if |xs| == 0 then 0 else (if xs[0] == x then 1 else 0) + Count(xs[1..], x)
  }

  lemma {:induction false} IndexOfInPrefix<T>(xs: seq<T>, ys: seq<T>, x: T)
    requires x in xs
    ensures IndexOf(xs + ys, x) == IndexOf(xs, x)
  {
    var i := IndexOf(xs, x);
    assert (xs + ys)[i] == x;
  }

  /** keys lists each distinct element of xs exactly once, in the order in
      which the elements first occur in xs. This determines keys uniquely. */
  ghost predicate FirstSeenOrder<T>(keys: seq<T>, xs: seq<T>) {
    && Distinct(keys)
    && (forall i :: 0 <= i < |keys| ==> keys[i] in xs)
    && (forall i :: 0 <= i < |xs| ==> xs[i] in keys)
    && (forall i, j :: 0 <= i < j < |keys| ==> IndexOf(xs, keys[i]) < IndexOf(xs, keys[j]))
  }

  /** Observing one more element keeps the first-seen ordering when the new
      element is appended only if it is new: keys' and xs' are the keys and
      the observations after x is observed. */
  lemma {:induction false} FirstSeenSnoc<T>(keys: seq<T>, xs: seq<T>, x: T, keys': seq<T>, xs': seq<T>)
    requires FirstSeenOrder(keys, xs)
    requires keys' == if x in keys then keys else keys + [x]
    requires xs' == xs + [x]
    ensures FirstSeenOrder(keys', xs')
  {
    forall k | k in xs
      ensures IndexOf(xs', k) == IndexOf(xs, k)
    {
      IndexOfInPrefix(xs, [x], k);
    }
    if x !in keys {
      assert x !in xs;
      assert IndexOf(xs', x) == |xs|;
      forall i, j | 0 <= i < j < |keys'|
        ensures IndexOf(xs', keys'[i]) < IndexOf(xs', keys'[j])
      {
        assert keys'[i] in keys;
        if j == |keys| {
          assert IndexOf(xs', keys'[i]) == IndexOf(xs, keys'[i]) < |xs|;
        } else {
          assert keys'[j] == keys[j];
        }
      }
    }
  }

  /** Regrouping one step of a recursion that distributes over
      concatenation: from x == h + y, a == h + t and y == t + b it follows
      that x == a + b. */
  lemma {:induction false} Regroup<T>(x: seq<T>, y: seq<T>, a: seq<T>, t: seq<T>, b: seq<T>, h: seq<T>)
    requires x == h + y && a == h + t && y == t + b
    ensures x == a + b
  {
    assert h + (t + b) == (h + t) + b;
  }
}

=== FILE: shop.dfy ===
/** The shop's session state and the transitions the pages drive: starting an
    order, adding a line, completing or cancelling the order, upserting a menu
    item and restocking. Each transition either yields the next state or names
    the reason it was refused, in which case the state stays as it was. */
module Shop {
  import opened Sequences
  import opened Results
  import opened OrderedMaps
  import opened Entities
  import opened Catalog
  import opened Ledger
  import opened History

  /** Everything the shop keeps for a session: menu, inventory, the history
      of finished orders, the next order number, the running sales total and
      the order being taken, if any. */
  datatype Session = Session(
    menu: Menu,
    inventory: Inventory,
    orders: seq<Order>,
    counter: int,
    dailySales: int,
    current: Option<Order>)

  /** What the transitions need to be well defined: both dictionaries are
      well formed and every line of the current order names a menu entry. */
  ghost predicate WellFormed(s: Session) {
    && Valid(s.menu)
    && Valid(s.inventory)
    && (s.current.Some? ==>
          forall i :: 0 <= i < |s.current.value.items| ==> s.current.value.items[i].name in s.menu.entries)
  }

  /** A finished order: completed or cancelled, at least one line, total
      matching its lines. */
  ghost predicate Finalized(o: Order) {
    o.status != Pending && |o.items| >= 1 && Reconciles(o)
  }

  /** The order being taken: pending, total matching its lines, every line
      priced above zero, numbered after every finished order and before the
      counter. */
  ghost predicate OpenOrderOk(o: Order, s: Session) {
    && o.status == Pending
    && Reconciles(o)
    && (forall i :: 0 <= i < |o.items| ==> o.items[i].price > 0)
    && 1 <= o.id < s.counter
    && (forall i :: 0 <= i < |s.orders| ==> s.orders[i].id < o.id)
  }

  /** A history as the shop keeps it: every order finished with a positive
      total, numbered from 1 and below the counter, in increasing order of
      number. */
  ghost predicate HistoryOk(orders: seq<Order>, counter: int) {
    && (forall i :: 0 <= i < |orders| ==> Finalized(orders[i]) && 1 <= orders[i].id < counter)
    && (forall i :: 0 <= i < |orders| ==> orders[i].total > 0)
    && (forall i, j :: 0 <= i < j < |orders| ==> orders[i].id < orders[j].id)
  }

  /** Appending a finished order numbered after every order of the history
      keeps the history well kept. */
  lemma {:induction false} HistorySnoc(orders: seq<Order>, counter: int, f: Order)
    requires HistoryOk(orders, counter)
    requires Finalized(f) && 1 <= f.id < counter && f.total > 0
    requires forall i :: 0 <= i < |orders| ==> orders[i].id < f.id
    ensures HistoryOk(orders + [f], counter)
  {
    var orders' := orders + [f];
    forall i | 0 <= i < |orders'|
      ensures Finalized(orders'[i]) && 1 <= orders'[i].id < counter && orders'[i].total > 0
    {
      if i < |orders| {
        assert orders'[i] == orders[i];
      }
    }
    forall i, j | 0 <= i < j < |orders'|
      ensures orders'[i].id < orders'[j].id
    {
      assert orders'[i] == orders[i];
      if j < |orders| {
        assert orders'[j] == orders[j];
      }
    }
  }

  /** The session invariant every reachable state satisfies. */
  ghost predicate Inv(s: Session) {
    && WellFormed(s)
    && MenuOk(s.menu)
    && StockOk(s.inventory)
    && s.counter >= 1
    && HistoryOk(s.orders, s.counter)
    && s.dailySales == CompletedSales(s.orders)
    && (s.current.Some? ==> OpenOrderOk(s.current.value, s))
  }

  /** A new session over the seed menu and inventory: no orders, numbering
      from 1, no sales, no order being taken. */
  function Init(menu: Menu, inventory: Inventory): (s: Session)
    requires MenuOk(menu) && StockOk(inventory)
    ensures Inv(s)
    ensures s.orders == [] && s.counter == 1 && s.dailySales == 0 && s.current.None?
  {
    Session(menu, inventory, [], 1, 0, None)
  }

  /** Start a new order for `customer`. Refused while an order is being
      taken. Otherwise the new order is pending, empty and numbered with the
      counter, which moves on by one; nothing else changes. */
  function StartOrder(s: Session, customer: string): (r: Result<Session, Error>)
    ensures r.Err? <==> s.current.Some?
    ensures r.Err? ==> r.error == OrderInProgress
    ensures r.Ok? ==>
      && r.value.current.Some?
      && r.value.current.value.id == s.counter
      && r.value.current.value.customer == customer
      && r.value.current.value.status == Pending
      && r.value.current.value.items == []
      && r.value.current.value.total == 0
    ensures r.Ok? ==> r.value.counter == s.counter + 1
    ensures r.Ok? ==> r.value.(current := None, counter := s.counter) == s
  {
    if s.current.Some? then Err(OrderInProgress)
    else Ok(s.(current := Some(NewOrder(s.counter, customer)), counter := s.counter + 1))
  }

  /** Add `quantity` of the menu item `itemName` to the current order.
      Refused when no order is being taken, when nothing is selected, when the
      item is not on the menu, and when a stocked recipe ingredient has fewer
      units than `quantity` (naming the first such ingredient in recipe
      order). Otherwise exactly one line is appended and the total rises by its
      subtotal; the inventory and everything else stay as they were. */
  function AddToOrder(s: Session, itemName: string, quantity: Quantity): (r: Result<Session, Error>)
    ensures s.current.None? ==> r == Err(NoCurrentOrder)
    ensures s.current.Some? && itemName == "" ==> r == Err(NoItemSelected)
    ensures s.current.Some? && itemName != "" && itemName !in s.menu.entries ==> r == Err(UnknownItem(itemName))
    ensures r.Err? && r.error.InsufficientStock? ==>
      && itemName in s.menu.entries
      && var recipe := s.menu.entries[itemName].ingredients;
      && r.error.ingredient in recipe
      && Short(s.inventory.entries, r.error.ingredient, quantity)
      && forall j :: 0 <= j < IndexOf(recipe, r.error.ingredient) ==> !Short(s.inventory.entries, recipe[j], quantity)
    ensures s.current.Some? && itemName != "" && itemName in s.menu.entries
            && FirstShort(s.inventory.entries, s.menu.entries[itemName].ingredients, quantity).Some? ==>
              r == Err(InsufficientStock(FirstShort(s.inventory.entries, s.menu.entries[itemName].ingredients, quantity).value))
    ensures r.Ok? <==>
      && s.current.Some? && itemName != "" && itemName in s.menu.entries
      && forall i :: 0 <= i < |s.menu.entries[itemName].ingredients| ==>
           !Short(s.inventory.entries, s.menu.entries[itemName].ingredients[i], quantity)
    ensures r.Ok? ==>
      && var o := s.current.value;
      && var item := s.menu.entries[itemName];
      && r.value.current.Some?
      && r.value.current.value.items == o.items + [Line(item.name, item.price, quantity, item.category, item.price * quantity)]
      && r.value.current.value.total == o.total + item.price * quantity
      && r.value.current.value.(items := o.items, total := o.total) == o
      && r.value.(current := s.current) == s
  {
    if s.current.None? then Err(NoCurrentOrder)
    else if itemName == "" then Err(NoItemSelected)
    else if itemName !in s.menu.entries then Err(UnknownItem(itemName))
    else
      var item := s.menu.entries[itemName];
      match FirstShort(s.inventory.entries, item.ingredients, quantity)
      case Some(ingredient) => Err(InsufficientStock(ingredient))
      case None => Ok(s.(current := Some(AddItem(s.current.value, item, quantity))))
  }

  /** Complete the current order. Refused when no order is being taken or it
      has no lines. Otherwise every stocked ingredient drops by what the
      order's lines consume under the menu's current recipes, the order is
      appended to the history as completed, the sales total rises by the
      order's total and no order is being taken any more. */
  function CompleteOrder(s: Session): (r: Result<Session, Error>)
    requires WellFormed(s)
    ensures s.current.None? ==> r == Err(NoCurrentOrder)
    ensures s.current.Some? && |s.current.value.items| == 0 ==> r == Err(EmptyOrder)
    ensures r.Ok? <==> s.current.Some? && |s.current.value.items| > 0
    ensures r.Ok? ==>
      && var o := s.current.value;
      && r.value.orders == s.orders + [o.(status := Completed)]
      && r.value.dailySales == s.dailySales + o.total
      && r.value.current.None?
      && r.value.menu == s.menu
      && r.value.counter == s.counter
    ensures r.Ok? ==>
      && r.value.inventory.keys == s.inventory.keys
      && (forall k :: k in r.value.inventory.entries <==> k in s.inventory.entries)
      && forall k :: k in s.inventory.entries ==>
           r.value.inventory.entries[k] == s.inventory.entries[k].(quantity :=
             s.inventory.entries[k].quantity - Consumption(s.menu.entries, s.current.value.items, k))
  {
    if s.current.None? then Err(NoCurrentOrder)
    else if |s.current.value.items| == 0 then Err(EmptyOrder)
    else
      var o := s.current.value;
      Ok(s.(inventory := DeductLines(s.inventory, s.menu.entries, o.items),
            orders := s.orders + [o.(status := Completed)],
            dailySales := s.dailySales + o.total,
            current := None))
  }

  /** Cancel the current order. Refused when no order is being taken or it
      has no lines. Otherwise the order is appended to the history as
      cancelled and no order is being taken any more; inventory and sales are
      untouched. */
  function CancelOrder(s: Session): (r: Result<Session, Error>)
    ensures s.current.None? ==> r == Err(NoCurrentOrder)
    ensures s.current.Some? && |s.current.value.items| == 0 ==> r == Err(EmptyOrder)
    ensures r.Ok? <==> s.current.Some? && |s.current.value.items| > 0
    ensures r.Ok? ==>
      && r.value.orders == s.orders + [s.current.value.(status := Cancelled)]
      && r.value.current.None?
      && r.value.(orders := s.orders, current := s.current) == s
  {
    if s.current.None? then Err(NoCurrentOrder)
    else if |s.current.value.items| == 0 then Err(EmptyOrder)
    else Ok(s.(orders := s.orders + [s.current.value.(status := Cancelled)], current := None))
  }

  /** The menu form, applied to the session: only the menu can change. */
  function AddMenuItem(s: Session, name: string, price: int, category: string, ingredientsText: string)
    : (r: Result<Session, Error>)
    requires Valid(s.menu)
    ensures r.Ok? <==> UpsertMenuItem(s.menu, name, price, category, ingredientsText).Ok?
    ensures r.Err? ==> r.error == UpsertMenuItem(s.menu, name, price, category, ingredientsText).error
    ensures r.Ok? ==> r.value == s.(menu := UpsertMenuItem(s.menu, name, price, category, ingredientsText).value)
  {
    match UpsertMenuItem(s.menu, name, price, category, ingredientsText)
    case Ok(m) => Ok(s.(menu := m))
    case Err(e) => Err(e)
  }

  /** The inventory form, applied to the session: only the inventory can
      change. */
  function Restock(s: Session, name: string, quantity: int, unit: string, minStock: int)
    : (r: Result<Session, Error>)
    requires Valid(s.inventory)
    ensures r.Ok? <==> UpsertStock(s.inventory, name, quantity, unit, minStock).Ok?
    ensures r.Err? ==> r.error == InvalidStockEntry
    ensures r.Ok? ==> r.value == s.(inventory := UpsertStock(s.inventory, name, quantity, unit, minStock).value)
  {
    match UpsertStock(s.inventory, name, quantity, unit, minStock)
    case Ok(inv) => Ok(s.(inventory := inv))
    case Err(e) => Err(e)
  }

  /** What a user can do on the pages. */
  datatype Action =
    | StartNew(customer: string)
    | AddLine(itemName: string, quantity: Quantity)
    | Complete
    | Cancel
    | UpsertMenu(name: string, price: int, category: string, ingredientsText: string)
    | UpsertInventory(name: string, amount: int, unit: string, minStock: int)

  /** One page action. Only the menu form changes the menu; only completion
      and the inventory form change the inventory; only completion and
      cancellation change the history and the sales total; only starting an
      order moves the counter. */
  function Step(s: Session, a: Action): (r: Result<Session, Error>)
    requires WellFormed(s)
    ensures r.Ok? && !a.UpsertMenu? ==> r.value.menu == s.menu
    ensures r.Ok? && !a.Complete? && !a.UpsertInventory? ==> r.value.inventory == s.inventory
    ensures r.Ok? && !a.Complete? && !a.Cancel? ==> r.value.orders == s.orders && r.value.dailySales == s.dailySales
    ensures r.Ok? && !a.StartNew? ==> r.value.counter == s.counter
  {
    match a
    case StartNew(c) => StartOrder(s, c)
    case AddLine(n, q) => AddToOrder(s, n, q)
    case Complete => CompleteOrder(s)
    case Cancel => CancelOrder(s)
    case UpsertMenu(n, p, c, t) => AddMenuItem(s, n, p, c, t)
    case UpsertInventory(n, q, u, m) => Restock(s, n, q, u, m)
  }

  lemma {:induction false} StartPreservesInv(s: Session, customer: string)
    requires Inv(s)
    ensures StartOrder(s, customer).Ok? ==> Inv(StartOrder(s, customer).value)
  {
  }

  lemma {:induction false} AddPreservesInv(s: Session, itemName: string, quantity: Quantity)
    requires Inv(s)
    ensures AddToOrder(s, itemName, quantity).Ok? ==> Inv(AddToOrder(s, itemName, quantity).value)
  {
    var r := AddToOrder(s, itemName, quantity);
    if r.Ok? {
      var o := s.current.value;
      var o' := r.value.current.value;
      assert o'.items[..|o.items|] == o.items;
      assert forall i :: 0 <= i < |o.items| ==> o'.items[i] == o.items[i];
    }
  }

  /** Finishing the current order keeps the invariant: the order joins the
      history with its final status, no order is being taken, the sales total
      grows by the order's total exactly when it is completed, and the
      inventory may change in any way that keeps every entry filed under its
      own name. */
  lemma {:induction false} FinishPreservesInv(s: Session, st: Status, s': Session)
    requires Inv(s)
    requires s.current.Some? && |s.current.value.items| > 0 && st != Pending
    requires s'.menu == s.menu && s'.counter == s.counter && StockOk(s'.inventory)
    requires s'.orders == s.orders + [s.current.value.(status := st)] && s'.current.None?
    requires s'.dailySales == s.dailySales + (if st == Completed then s.current.value.total else 0)
    ensures Inv(s')
  {
    var o := s.current.value;
    var f := o.(status := st);
    CompletedSalesSnoc(s.orders, f);
    PositiveLinesPositiveSum(o.items);
    HistorySnoc(s.orders, s.counter, f);
  }

  lemma {:induction false} CompletePreservesInv(s: Session)
    requires Inv(s)
    ensures CompleteOrder(s).Ok? ==> Inv(CompleteOrder(s).value)
  {
    if CompleteOrder(s).Ok? {
      FinishPreservesInv(s, Completed, CompleteOrder(s).value);
    }
  }

  lemma {:induction false} CancelPreservesInv(s: Session)
    requires Inv(s)
    ensures CancelOrder(s).Ok? ==> Inv(CancelOrder(s).value)
  {
    if CancelOrder(s).Ok? {
      FinishPreservesInv(s, Cancelled, CancelOrder(s).value);
    }
  }

  lemma {:induction false} MenuPreservesInv(s: Session, name: string, price: int, category: string, text: string)
    requires Inv(s)
    ensures AddMenuItem(s, name, price, category, text).Ok? ==> Inv(AddMenuItem(s, name, price, category, text).value)
  {
  }

  lemma {:induction false} RestockPreservesInv(s: Session, name: string, quantity: int, unit: string, minStock: int)
    requires Inv(s)
    ensures Restock(s, name, quantity, unit, minStock).Ok? ==> Inv(Restock(s, name, quantity, unit, minStock).value)
  {
  }

  /** Every transition keeps the session invariant. */
  lemma {:induction false} StepPreservesInv(s: Session, a: Action)
    requires Inv(s)
    ensures Step(s, a).Ok? ==> Inv(Step(s, a).value)
  {
    match a
    case StartNew(c) => StartPreservesInv(s, c);
    case AddLine(n, q) => AddPreservesInv(s, n, q);
    case Complete => CompletePreservesInv(s);
    case Cancel => CancelPreservesInv(s);
    case UpsertMenu(n, p, c, t) => MenuPreservesInv(s, n, p, c, t);
    case UpsertInventory(n, q, u, m) => RestockPreservesInv(s, n, q, u, m);
  }

  /** The page flow: a refused action leaves the session as it was. */
  function Apply(s: Session, a: Action): (s': Session)
    requires Inv(s)
    ensures Inv(s')
  {
    StepPreservesInv(s, a);
    match Step(s, a)
    case Ok(next) => next
    case Err(_) => s
  }

  /** Running a sequence of actions from a session that satisfies the
      invariant keeps it satisfied. */
  function Run(s: Session, actions: seq<Action>): (s': Session)
    requires Inv(s)
    ensures Inv(s')
    decreases |actions|
  {
    if |actions| == 0 then s else Run(Apply(s, actions[0]), actions[1..])
  }

  /** The history only grows: every finished order stays exactly as it was,
      so no order ever leaves the completed or cancelled state, and the sales
      total never goes down. */
  lemma {:induction false} HistoryAppendOnly(s: Session, a: Action)
    requires Inv(s)
    ensures |s.orders| <= |Apply(s, a).orders|
    ensures Apply(s, a).orders[..|s.orders|] == s.orders
    ensures Apply(s, a).dailySales >= s.dailySales
  {
    var r := Step(s, a);
    if r.Ok? && a.Complete? {
      PositiveLinesPositiveSum(s.current.value.items);
    }
  }

  /** Order numbers are unique across the history and the order being taken. */
  lemma {:induction false} OrderIdsUnique(s: Session)
    requires Inv(s)
    ensures forall i, j :: 0 <= i < |s.orders| && 0 <= j < |s.orders| && i != j ==> s.orders[i].id != s.orders[j].id
    ensures s.current.Some? ==> forall i :: 0 <= i < |s.orders| ==> s.orders[i].id != s.current.value.id
  {
    forall i, j | 0 <= i < |s.orders| && 0 <= j < |s.orders| && i != j
      ensures s.orders[i].id != s.orders[j].id
    {
      if i < j {
        assert s.orders[i].id < s.orders[j].id;
      } else {
        assert s.orders[j].id < s.orders[i].id;
      }
    }
  }

  /** Over any run of actions the history only grows and the sales total
      never goes down. */
  lemma {:induction false} RunHistoryGrows(s: Session, actions: seq<Action>)
    requires Inv(s)
    ensures |s.orders| <= |Run(s, actions).orders|
    ensures Run(s, actions).orders[..|s.orders|] == s.orders
    ensures Run(s, actions).dailySales >= s.dailySales
    decreases |actions|
  {
    if |actions| > 0 {
      var s1 := Apply(s, actions[0]);
      HistoryAppendOnly(s, actions[0]);
      RunHistoryGrows(s1, actions[1..]);
      var e := Run(s, actions);
      assert e == Run(s1, actions[1..]);
      assert e.orders[..|s.orders|] == e.orders[..|s1.orders|][..|s.orders|];
    }
  }
}

=== FILE: text.dfy ===
/** The text handling the menu form applies to its ingredient box: Python's
    `str.split('\n')`, `str.strip()` and the inverse `'\n'.join`. */
module Text {
  import Sequences

  /** The characters Python's `str.isspace` accepts, which are the ones
      `str.strip()` removes when called without arguments: tab through
      carriage return, the four information separators U+001C..U+001F,
      space, NEL, no-break space, and the Unicode space separators and line
      and paragraph separators. */
  predicate IsSpace(c: char) {
    || ('\t' <= c <= '\r')
    || ('\U{1C}' <= c <= '\U{1F}') || c == ' '
    || c == '\U{85}' || c == '\U{A0}' || c == '\U{1680}'
    || ('\U{2000}' <= c <= '\U{200A}')
    || c == '\U{2028}' || c == '\U{2029}' || c == '\U{202F}' || c == '\U{205F}' || c == '\U{3000}'
  }

  /** Neither starts nor ends with whitespace. */
  ghost predicate IsStripped(s: string) {
    |s| == 0 || (!IsSpace(s[0]) && !IsSpace(s[|s| - 1]))
  }

  /** A well-formed ingredient name: one non-blank line without surrounding
      whitespace. */
  ghost predicate IsCleanLine(s: string) {
    |s| > 0 && IsStripped(s) && '\n' !in s
  }

  /** Where the text after leading whitespace starts, scanning from i:
      the first non-whitespace position at or after i, or |s|. */
  function SpanStart(s: string, i: nat): (a: nat)
    requires i <= |s|
    ensures i <= a <= |s|
    ensures forall k :: i <= k < a ==> IsSpace(s[k])
    ensures a < |s| ==> !IsSpace(s[a])
    decreases |s| - i
  {
    if i < |s| && IsSpace(s[i]) then SpanStart(s, i + 1) else i
  }

  /** Where the text before trailing whitespace ends, scanning down from j
      but not below lo: the position after the last non-whitespace character
      in s[lo..j], or lo. */
  function SpanEnd(s: string, lo: nat, j: nat): (b: nat)
    requires lo <= j <= |s|
    ensures lo <= b <= j
    ensures forall k :: b <= k < j ==> IsSpace(s[k])
    ensures b > lo ==> !IsSpace(s[b - 1])
    decreases j
  {
    if j > lo && IsSpace(s[j - 1]) then SpanEnd(s, lo, j - 1) else j
  }

  /** `s.strip()`: s with its leading and trailing whitespace removed. The
      result is a slice of s with only whitespace around it, and it is empty
      exactly when s is blank. */
  function Strip(s: string): (r: string)
    ensures IsStripped(r)
    ensures exists a, b :: 0 <= a <= b <= |s| && s[a..b] == r
              && (forall i :: 0 <= i < a ==> IsSpace(s[i]))
              && (forall i :: b <= i < |s| ==> IsSpace(s[i]))
    ensures |r| == 0 <==> forall i :: 0 <= i < |s| ==> IsSpace(s[i])
  {
    var a := SpanStart(s, 0);
    var b := SpanEnd(s, a, |s|);
    var r := s[a..b];
    assert a < b ==> r[0] == s[a] && r[|r| - 1] == s[b - 1];
    assert (forall i :: 0 <= i < a ==> IsSpace(s[i])) && (forall i :: b <= i < |s| ==> IsSpace(s[i]));
    r
  }

  /** Stripping only removes characters: a line without a newline still has
      none once stripped. */
  lemma {:induction false} StripKeepsLine(s: string)
    requires '\n' !in s
    ensures '\n' !in Strip(s)
  {
    var a, b :| 0 <= a <= b <= |s| && s[a..b] == Strip(s);
    forall i | 0 <= i < b - a
      ensures Strip(s)[i] != '\n'
    {
      assert Strip(s)[i] == s[a + i];
    }
  }

  /** Stripping a string that has no surrounding whitespace changes nothing. */
  lemma {:induction false} StripStripped(s: string)
    requires IsStripped(s)
    ensures Strip(s) == s
  {
  }

  /** `s.split('\n')`: the pieces of s between newline characters. There is
      always at least one piece, and none contains a newline. */
  function Split(s: string): (r: seq<string>)
    ensures |r| >= 1
    ensures forall i :: 0 <= i < |r| ==> '\n' !in r[i]
  {
    if |s| == 0 then [""]
    else if s[0] == '\n' then [""] + Split(s[1..])
    else
      var rest := Split(s[1..]);
      [[s[0]] + rest[0]] + rest[1..]
  }

  /** `'\n'.join(xs)`. */
  function Join(xs: seq<string>): string
  {
    if |xs| == 0 then ""
    else if |xs| == 1 then xs[0]
    else xs[0] + "\n" + Join(xs[1..])
  }

  lemma {:induction false} JoinCons(x: string, xs: seq<string>)
    requires |xs| >= 1
    ensures Join([x] + xs) == x + "\n" + Join(xs)
  {
    assert ([x] + xs)[1..] == xs;
  }

  /** Prefixing a character to the first piece prefixes it to the join. */
  lemma {:induction false} JoinPrefixChar(c: char, xs: seq<string>)
    requires |xs| >= 1
    ensures Join([[c] + xs[0]] + xs[1..]) == [c] + Join(xs)
  {
    var ys := [[c] + xs[0]] + xs[1..];
    if |xs| == 1 {
      assert ys == [[c] + xs[0]];
    } else {
      var j := Join(xs[1..]);
      assert Join(ys) == ([c] + xs[0]) + "\n" + j by {
        assert ys[1..] == xs[1..];
      }
      assert Join(xs) == xs[0] + "\n" + j;
      assert ([c] + xs[0]) + "\n" + j == [c] + (xs[0] + "\n" + j);
    }
  }

  /** Splitting and joining again gives back the original text. */
  lemma {:induction false} JoinSplit(s: string)
    ensures Join(Split(s)) == s
  {
    if |s| > 0 {
      var rest := Split(s[1..]);
      JoinSplit(s[1..]);
      if s[0] == '\n' {
        assert Split(s) == [""] + rest;
        JoinCons("", rest);
        assert s == "" + "\n" + s[1..];
      } else {
        assert Split(s) == [[s[0]] + rest[0]] + rest[1..];
        JoinPrefixChar(s[0], rest);
        assert s == [s[0]] + s[1..];
      }
    }
  }

  /** A newline-free prefix stays one piece in front of whatever follows the
      next newline. */
  lemma {:induction false} SplitAfterLine(x: string, t: string)
    requires '\n' !in x
    ensures Split(x + "\n" + t) == [x] + Split(t)
  {
    if |x| == 0 {
      assert x + "\n" + t == "\n" + t;
      assert ("\n" + t)[1..] == t;
    } else {
      SplitAfterLine(x[1..], t);
      assert (x + "\n" + t)[1..] == x[1..] + "\n" + t;
      assert [x[0]] + x[1..] == x;
    }
  }

  /** A newline-free string is one piece. */
  lemma {:induction false} SplitLine(x: string)
    requires '\n' !in x
    ensures Split(x) == [x]
  {
    if |x| > 0 {
      SplitLine(x[1..]);
      assert [x[0]] + x[1..] == x;
    }
  }

  /** Joining at least one newline-free piece and splitting again gives back
      the pieces. */
  lemma {:induction false} SplitJoin(xs: seq<string>)
    requires |xs| >= 1
    requires forall i :: 0 <= i < |xs| ==> '\n' !in xs[i]
    ensures Split(Join(xs)) == xs
  {
    if |xs| == 1 {
      SplitLine(xs[0]);
    } else {
      SplitJoin(xs[1..]);
      SplitAfterLine(xs[0], Join(xs[1..]));
      assert xs == [xs[0]] + xs[1..];
    }
  }

  /** Some piece strips to x. */
  ghost predicate StripsTo(parts: seq<string>, x: string) {
    exists i :: 0 <= i < |parts| && Strip(parts[i]) == x
  }

  /** A piece strips to x exactly when the first one does or one of the
      rest does. */
  lemma {:induction false} StripsToCons(parts: seq<string>, x: string)
    requires |parts| > 0
    ensures StripsTo(parts, x) <==> Strip(parts[0]) == x || StripsTo(parts[1..], x)
  {
    if StripsTo(parts, x) && Strip(parts[0]) != x {
      var i :| 0 <= i < |parts| && Strip(parts[i]) == x;
      assert parts[1..][i - 1] == parts[i];
    }
    if StripsTo(parts[1..], x) {
      var i :| 0 <= i < |parts[1..]| && Strip(parts[1..][i]) == x;
      assert parts[i + 1] == parts[1..][i];
    }
  }

  /** No piece contains a newline, as with the pieces Split returns. */
  ghost predicate NoNewlines(parts: seq<string>) {
    forall i :: 0 <= i < |parts| ==> '\n' !in parts[i]
  }

  /** The stripped pieces that are not blank, in order. */
  function KeepNonBlank(parts: seq<string>): (r: seq<string>)
    ensures forall i :: 0 <= i < |r| ==> |r[i]| > 0 && IsStripped(r[i])
    ensures |r| <= |parts|
  {
    if |parts| == 0 then []
    else
      var h := Strip(parts[0]);
      (if |h| == 0 then [] else [h]) + KeepNonBlank(parts[1..])
  }

  /** The one-piece case: a piece contributes its stripped self, or nothing
      when blank, ahead of the rest. */
  lemma {:induction false} KeepNonBlankCons(parts: seq<string>)
    requires |parts| > 0
    ensures KeepNonBlank(parts)
            == (if Strip(parts[0]) == "" then [] else [Strip(parts[0])]) + KeepNonBlank(parts[1..])
  {
  }

  /** A name is kept exactly when it is not empty and some piece strips to
      it. */
  lemma {:induction false} KeepNonBlankMembers(parts: seq<string>)
    ensures forall x :: x in KeepNonBlank(parts) <==> x != "" && StripsTo(parts, x)
  {
    if |parts| > 0 {
      KeepNonBlankCons(parts);
      KeepNonBlankMembers(parts[1..]);
      forall x ensures x in KeepNonBlank(parts) <==> x != "" && StripsTo(parts, x) {
        StripsToCons(parts, x);
      }
    }
  }

  /** Kept names of newline-free pieces are newline-free. */
  lemma {:induction false} KeepNonBlankLines(parts: seq<string>)
    requires NoNewlines(parts)
    ensures forall i :: 0 <= i < |KeepNonBlank(parts)| ==> IsCleanLine(KeepNonBlank(parts)[i])
  {
    var r := KeepNonBlank(parts);
    KeepNonBlankMembers(parts);
    forall i | 0 <= i < |r| ensures IsCleanLine(r[i]) {
      assert r[i] in r;
      var j :| 0 <= j < |parts| && Strip(parts[j]) == r[i];
      StripKeepsLine(parts[j]);
    }
  }

  /** Keeping the non-blank pieces of two runs of pieces is keeping those of
      each run, one after the other: together with KeepNonBlankCons this
      fixes the order and the number of the kept names. */
  lemma {:induction false} KeepNonBlankAppend(a: seq<string>, b: seq<string>)
    ensures KeepNonBlank(a + b) == KeepNonBlank(a) + KeepNonBlank(b)
  {
    if |a| == 0 {
      assert a + b == b;
    } else {
      var tail := a[1..];
      var head: seq<string> := if Strip(a[0]) == "" then [] else [Strip(a[0])];
      assert KeepNonBlank(a + b) == head + KeepNonBlank(tail + b) by {
        assert (a + b)[0] == a[0];
        assert (a + b)[1..] == tail + b;
        KeepNonBlankCons(a + b);
      }
      assert KeepNonBlank(a) == head + KeepNonBlank(tail) by {
        KeepNonBlankCons(a);
      }
      KeepNonBlankAppend(tail, b);
      Sequences.Regroup(KeepNonBlank(a + b), KeepNonBlank(tail + b), KeepNonBlank(a), KeepNonBlank(tail), KeepNonBlank(b), head);
    }
  }

  /** The ingredient list typed one per line: each line stripped, blank
      lines dropped. A name is listed exactly when it is not empty and some
      line of the text strips to it. */
  function ParseIngredients(text: string): (r: seq<string>)
    ensures forall i :: 0 <= i < |r| ==> IsCleanLine(r[i])
    ensures forall x :: x in r <==> x != "" && StripsTo(Split(text), x)
  {
    KeepNonBlankMembers(Split(text));
    KeepNonBlankLines(Split(text));
    KeepNonBlank(Split(text))
  }

  /** Splitting at a newline splits the two sides independently. */
  lemma {:induction false} SplitAppend(a: string, b: string)
    ensures Split(a + "\n" + b) == Split(a) + Split(b)
  {
    if |a| == 0 {
      assert a + "\n" + b == "\n" + b;
      assert ("\n" + b)[1..] == b;
    } else {
      var t := a + "\n" + b;
      var rest, sb := Split(a[1..]), Split(b);
      var st := Split(t[1..]);
      assert st == rest + sb by {
        assert t[1..] == a[1..] + "\n" + b;
        SplitAppend(a[1..], b);
      }
      assert t[0] == a[0];
      if a[0] == '\n' {
        Sequences.Regroup(Split(t), st, Split(a), rest, sb, [""]);
      } else {
        var first: string := [a[0]] + rest[0];
        assert st[0] == rest[0] && st[1..] == rest[1..] + sb;
        Sequences.Regroup(Split(t), st[1..], Split(a), rest[1..], sb, [first]);
      }
    }
  }

  /** The lines before a newline and the lines after it are parsed
      independently, one after the other. */
  lemma {:induction false} ParseLines(a: string, b: string)
    ensures ParseIngredients(a + "\n" + b) == ParseIngredients(a) + ParseIngredients(b)
  {
    SplitAppend(a, b);
    KeepNonBlankAppend(Split(a), Split(b));
  }

  /** A single line parses to its stripped self, or to nothing when blank. */
  lemma {:induction false} ParseLine(x: string)
    requires '\n' !in x
    ensures ParseIngredients(x) == if Strip(x) == "" then [] else [Strip(x)]
  {
    SplitLine(x);
    assert [x][1..] == [];
  }

  /** Writing a list of clean ingredient names one per line and parsing the
      text gives back exactly that list; in particular blank text parses to
      no ingredients. */
  lemma {:induction false} ParseJoin(xs: seq<string>)
    requires forall i :: 0 <= i < |xs| ==> IsCleanLine(xs[i])
    ensures ParseIngredients(Join(xs)) == xs
  {
    if |xs| == 0 {
      assert Split("") == [""];
    } else {
      SplitJoin(xs);
      KeepCleanLines(xs);
    }
  }

  lemma {:induction false} KeepCleanLines(xs: seq<string>)
    requires forall i :: 0 <= i < |xs| ==> IsCleanLine(xs[i])
    ensures forall i :: 0 <= i < |xs| ==> '\n' !in xs[i]
    ensures KeepNonBlank(xs) == xs
  {
    assert forall i :: 0 <= i < |xs| ==> '\n' !in xs[i] by {
      forall i | 0 <= i < |xs| ensures '\n' !in xs[i] {
        assert IsCleanLine(xs[i]);
      }
    }
    if |xs| > 0 {
      var h := xs[0];
      StripStripped(h);
      assert Strip(h) == h && |h| > 0;
      KeepCleanLines(xs[1..]);
      assert KeepNonBlank(xs) == [h] + KeepNonBlank(xs[1..]);
      assert xs == [h] + xs[1..];
    }
  }
}
